=== FILE: README.md ===
# motionEye server core, modelled in Dafny

This project models the decision logic of motionEye's server entry point,
`motioneye/server.py`. Each decision is a pure function that returns the
trace of observable actions the Python code performs: writes to the standard
streams, exit statuses, signals, log lines, and subsystem starts and stops.
The operating system and the collaborating modules become oracle parameters.

The model covers:

- the pid file of the background daemon. `daemonize` writes `'%s\n' % pid`.
  `running` reads it back with `int(text.strip())` and then probes the pid
  with `os.kill(pid, 0)`;
- the command guards of `Daemon.start` and `Daemon.stop`;
- the bounded stop loop. It sends SIGTERM, makes at most 50 liveness probes,
  and escalates to SIGKILL only when every probe found the process alive;
- the level at which `_log_request` logs a finished request;
- `test_requirements`, `make_media_folders`, and `start_motion` with its
  health check `checker`;
- the start-up and shut-down order of `run`.

Modules, one per component:

| file | module | component |
|---|---|---|
| common.dfy | `Common` | actions, settings, log levels, occurrence counting, ASCII digits |
| pidfile.dfy | `PidFile` | pid file text, `str.strip`, `int`, `Daemon.running` |
| daemon.dfy | `Daemon` | `daemonize`, `del_pid`, `start`, `stop` |
| requestlog.dfy | `RequestLog` | `_log_request` and `_CURRENT_PICTURE_REGEX` |
| requirements.dfy | `Requirements` | `test_requirements` |
| motion.dfy | `MotionSupervisor` | `start_motion` and `checker` |
| media.dfy | `MediaFolders` | `make_media_folders` |
| server.dfy | `Server` | `run` |

Python truthiness is modelled explicitly. A pid of 0 counts as "not
running": `start` tests `if self.running()` and `stop` tests `if not pid`.
`CLEANUP_INTERVAL` and `MJPG_CLIENT_TIMEOUT` enable their subsystem when
non-zero.

The oracles are the following:

- `Daemon`:
  - the results of the two forks and the pid of the final process (`DaemonizeOracle`);
  - whether SIGTERM raised;
  - the outcome of the k-th probe;
  - whether removing the pid file and sending SIGKILL succeed (`StopOracle`).
- `PidFile`: whether the pid file can be read, and the liveness probe `alive`.
- `MotionSupervisor`: what `motionctl.running()`, `motionctl.started()` and
  the enabled-camera query return, and whether `motionctl.start()` raises.
- `MediaFolders`: per camera, its `target_dir`, whether the folder exists,
  and the error `os.makedirs` raises.
- `Server`:
  - the environment `test_requirements` inspects;
  - the `start` flag of `smbctl.update_mounts()`;
  - whether `cleanup.running()` and `motionctl.running()` hold at shut-down.

## Model

| member | source | states |
|---|---|---|
| PidFile.FormatPid | motioneye/server.py:92 | the pid file text `'%s\n' % pid`: at least one character followed by a newline; PidFileRoundTrip and StripFormatPid state that it reads back as the pid |
| PidFile.ParsePid | motioneye/server.py:104 | `int(text.strip())`; no contract of its own: PidFileRoundTrip states that it reads back every written pid, and ParseInt and StripLeft/StripRight state its parts |
| PidFile.PidFileRoundTrip | motioneye/server.py:91-104 | for every integer pid, `int(text.strip())` of the text `daemonize` writes gives back that pid |
| PidFile.FormatParseRoundTrip | motioneye/server.py:104 | `int(str(n)) == n` for every integer, negative ones included |
| PidFile.DigitsRoundTrip | motioneye/server.py:104 | the decimal digits of a natural number read back as that number |
| PidFile.StripFormatPid | motioneye/server.py:92-104 | stripping the written pid text removes exactly the trailing newline |
| PidFile.StripLeft | motioneye/server.py:104 | the leading whitespace is removed: what is dropped is all whitespace, and what remains is a suffix that does not start with whitespace |
| PidFile.StripRight | motioneye/server.py:104 | the trailing whitespace is removed: what is dropped is all whitespace, and what remains is a prefix that does not end with whitespace |
| PidFile.ParseInt | motioneye/server.py:104 | a string parses iff it is an optional sign followed by at least one digit; the value is that of the digits, negated exactly when the sign is `-` |
| PidFile.Running | motioneye/server.py:101-114 | `running` returns a pid iff the file is readable, its stripped text parses, and the probe finds that pid alive; the pid returned is the parsed one; every failure yields absent, never an error |
| PidFile.RunningAfterWrite | motioneye/server.py:89-114 | after a pid file is written, `running` reports that pid exactly when it is alive |
| PidFile.GarbageIsNotRunning | motioneye/server.py:103-107 | file content with no digit at all never names a running pid |
| Daemon.Daemonize | motioneye/server.py:56-92 | a failed fork ends with exit -1 before any pid file write; after two successful forks the pid file is written once, with the final process's own pid and no other content, and there is no exit |
| Daemon.DelPid | motioneye/server.py:94-99 | the pid file removal is attempted first; a success writes nothing more, a failure writes exactly "failed to remove pid file." to standard error; neither exits |
| Daemon.Start | motioneye/server.py:116-123 | when `running()` is truthy: "server is already running", then exit -1, with no fork, pid file write or service run. Otherwise, after a successful daemonize, the only pid file content written is the own pid and the service runs last; after a failed fork the trace ends with exit -1, with no pid file write, no "server started" and no service run |
| Daemon.StartWritesOwnPid | motioneye/server.py:89-123 | whenever `running()` was falsy and both forks succeed, the start writes the final process's pid, and every pid file text the start writes is read back by `running` as exactly that pid while the process is alive |
| Daemon.AfterProbeError | motioneye/server.py:142-150 | what follows a probe that raised `OSError`; no contract of its own: AfterProbeErrorOutcome states its two outcomes |
| Daemon.AfterProbeErrorOutcome | motioneye/server.py:142-150 | a probe error containing "No such process" removes the pid file and reports "server stopped" without exiting; any other error exits with -11 without touching the pid file; neither sends a signal |
| Daemon.StopTrace | motioneye/server.py:125-158 | the stop command as a trace; no contract of its own: StopNotRunning, StopRunning, StopGoneProbes and StopGone characterise it, and the method Stop computes it |
| Daemon.Poll | motioneye/server.py:137-158 | the polling loop from iteration i, as a recursive definition; no contract of its own: PollKill, PollProbeBound, PollExitOnlyLast, PollAfterAlive and PollGone characterise it, and the method PollLoop computes it |
| Daemon.Stop | motioneye/server.py:125-158 | the stop command, as the not-running report or SIGTERM followed by the polling loop, computes the same trace as its recursive definition |
| Daemon.PollLoop | motioneye/server.py:137-158 | the `for`/`break`/`else` loop computes the same trace as the recursive definition of the polling |
| Daemon.PollAfterAlive | motioneye/server.py:137-140 | when probes j to i - 1 all find the process alive, the loop from iteration j is i - j probe-and-sleep rounds followed by the loop from iteration i |
| Daemon.StopNotRunning | motioneye/server.py:125-129 | when `running()` is falsy: "server is not running", then exit -1, with no signal and no probe |
| Daemon.StopRunning | motioneye/server.py:131-158 | when `running()` is truthy, SIGTERM comes first and polling follows even when SIGTERM failed, which is reported; at most 50 probes are made; nothing follows an exit; SIGKILL is sent exactly once iff all 50 probes find the process alive |
| Daemon.PollKill | motioneye/server.py:137-158 | from iteration i, SIGKILL is sent exactly once iff every remaining probe finds the process alive, and otherwise never |
| Daemon.PollProbeBound | motioneye/server.py:137-140 | the loop from iteration i makes at most 50 - i probes |
| Daemon.PollExitOnlyLast | motioneye/server.py:137-158 | in the polling loop an exit, if any, is the last action |
| Daemon.PollGone | motioneye/server.py:137-150 | when probe k is the first to raise, the loop is k rounds of probe-and-sleep, the failing probe, and what that error decides |
| Daemon.StopGoneProbes | motioneye/server.py:137-150 | when probe k is the first to raise, exactly k + 1 probes are made |
| Daemon.StopGone | motioneye/server.py:137-150 | when probe k is the first to raise, SIGKILL is never sent. "No such process" removes the pid file and reports the stop with no exit; any other error ends the trace with exit -11 and leaves the pid file alone |
| RequestLog.LeadingDigits | motioneye/server.py:48 | the length of the maximal run of ASCII digits at the start of a string |
| RequestLog.MatchesCurrentPictureCorrect | motioneye/server.py:48 | the scan matches a URI iff the URI starts with `/picture/`, one or more digits, and `/current` |
| RequestLog.RequestLogLevel | motioneye/server.py:161-174 | below 400: nothing for current-picture URIs and debug otherwise; 400 to 499: warning; 500 and above: error. Each in both directions |
| RequestLog.FailuresAlwaysLogged | motioneye/server.py:164-172 | a request with status 400 or more is always logged, and never at debug level |
| RequestLog.PictureUriMatches | motioneye/server.py:48 | every `/picture/<digits>/current` URI matches, whatever follows it |
| RequestLog.OtherUrisDoNotMatch | motioneye/server.py:48 | `/picture/12/list`, `/picture//current` and `/movie/12/current` do not match |
| Requirements.TestRequirements | motioneye/server.py:247-319 | the failing check reported is unsatisfied and every check before it in the fixed order passed; all checks pass iff the result is `Met`, which then carries the advisory notes |
| Requirements.Advisories | motioneye/server.py:321-336 | missing motion is an info note; missing ffmpeg or v4l-utils is a warning when motion is installed and info otherwise; there is one note per missing tool |
| Requirements.AdvisoriesInCheckOrder | motioneye/server.py:321-336 | the advisory notes come in the order the tools are checked: motion, then ffmpeg, then v4l-utils |
| Requirements.RequirementsTrace | motioneye/server.py:247-336 | a failed check logs its own message at fatal level and ends with exit -1, and nothing follows that exit; when every check passes, the trace is exactly the advisory notes, one log line each, at info or warning level |
| Requirements.UnwritableConfigDirWins | motioneye/server.py:248-253 | an unwritable config directory is reported whatever else is missing |
| Requirements.SmbRequirements | motioneye/server.py:274-319 | with SMB shares, a non-root user fails the root check, and root passes iff mount.cifs is found; without shares neither matters |
| MotionSupervisor.StartMotion | motioneye/server.py:384-392 | exactly one start attempt comes first; a failure is only logged; the check is armed exactly once, last; there is no exit |
| MotionSupervisor.Restart | motioneye/server.py:373-378 | a restart announces itself once with "motion not running, starting it", starts motion once, logs "failed to start motion: " and the error exactly when the start raised, writes no other log line, and schedules nothing itself |
| MotionSupervisor.CheckerStep | motioneye/server.py:366-382 | motion is started and the restart announced iff it is not running, was started, and an enabled camera exists; otherwise the firing only schedules the next check; every log line is the announcement or the failure of this firing's restart; exactly one follow-up check is scheduled, last, also after a failed restart |
| MotionSupervisor.CheckerRun | motioneye/server.py:366-382 | successive firings of `checker`; no contract of its own: CheckerRunCounts characterises it |
| MotionSupervisor.CheckerRunCounts | motioneye/server.py:366-382 | over n firings, exactly n follow-ups are scheduled; motion starts, and the restart is announced, once per firing whose condition held; every log line comes from a firing whose condition held |
| MotionSupervisor.RestartTruthTable | motioneye/server.py:368-372 | of the eight combinations of the three conditions, only one restarts motion |
| MediaFolders.FolderStep | motioneye/server.py:346-357 | a camera's folder is created iff it has a `target_dir` that does not exist; a log line is written only when that creation fails, and it is the error-level message with the folder, the camera id and the error |
| MediaFolders.MediaFolders | motioneye/server.py:339-357 | `make_media_folders` as a trace; no contract of its own: MediaFoldersAttempts characterises it, and the method MakeMediaFolders computes it |
| MediaFolders.MakeMediaFolders | motioneye/server.py:339-357 | the Python `for` loop over the camera ids computes the same trace as the per-camera definition |
| MediaFolders.MediaFoldersAttempts | motioneye/server.py:344-357 | a folder is created iff some camera needs it; every failure is logged and does not stop later cameras; every log line is the failure message of some camera whose creation failed; nothing but folder creations and log lines happens |
| Server.Run | motioneye/server.py:417-486 | `run` as a trace; no contract of its own: RunFatal, RunStarts, RunStartOrder, RunArmsChecker, RunListenOrder, RunStops, RunStopOrder and RunWithoutExit characterise it |
| Server.RunFatal | motioneye/server.py:425-426 | a failed requirement check ends the run with exit -1: no folder is created, no subsystem started or stopped, and nothing listens |
| Server.MotionStartupContents | motioneye/server.py:428-434 | motion starts, at most once, iff there are no SMB shares or the mount update says start; the health check is armed exactly then |
| Server.GatedStartCount | motioneye/server.py:436-451 | cleanup starts iff the cleanup interval is non-zero; the websocket switch and tasks always start; the MJPEG client collector starts iff its timeout is non-zero; SMB mounts start iff shares are configured; each starts at most once |
| Server.MotionSetupOrdered | motioneye/server.py:428-434 | the only set-up steps of the motion step are the mount update and the start of motion, and the mount update comes first |
| Server.SubsystemSetupOrdered | motioneye/server.py:436-451 | the configuration-gated phase only starts subsystems other than motion, in the order cleanup, websocket switch, tasks, MJPEG client collector, SMB mounts |
| Server.StartupSetupOrdered | motioneye/server.py:427-451 | start-up creates all media folders first, then updates the mounts, then starts the subsystems in start-up order |
| Server.RunSetupOrdered | motioneye/server.py:425-486 | over the whole run, any two folder creations, mount updates or starts come in start-up order; the checks, `listen` and the shut-down add none |
| Server.SetupOrderedSteps | motioneye/server.py:427-451 | what the start-up order means step by step: starts come in ascending start rank, every folder creation precedes the mount update and every start, and the mount update precedes every start |
| Server.RunStartOrder | motioneye/server.py:426-451 | `run` creates every media folder before the mount update, updates the mounts before starting motion, and starts the subsystems in the order motion, cleanup, websocket switch, tasks, MJPEG client collector, SMB mounts |
| Server.ShutdownOrdered | motioneye/server.py:472-484 | shut-down consists only of stops: tasks always, cleanup and motion when running, SMB when configured, in that order |
| Server.RunStarts | motioneye/server.py:425-451 | in a run whose checks passed, each subsystem starts exactly once when its configuration asks for it, and otherwise never |
| Server.RunArmsChecker | motioneye/server.py:428-434 | the motion health check is armed iff motion is started, so a mount update that vetoes the start leaves it unarmed |
| Server.RunListenOrder | motioneye/server.py:425-469 | `listen` happens once, directly before the I/O loop; every check, folder, mount update, start and check arming precedes it; only stops follow |
| Server.RunStops | motioneye/server.py:471-484 | the subsystems stopped are exactly tasks, cleanup if running, motion if running, and SMB if configured; the websocket switch and the MJPEG client collector are never stopped |
| Server.RunStopOrder | motioneye/server.py:471-484 | any two stops come in the order tasks, cleanup, motion, SMB |
| Server.RunWithoutExit | motioneye/server.py:417-486 | a run whose checks passed never exits and ends with a stop |

## Behaviour of the code worth noting

- `run` does not isolate faults between steps. No call in it is wrapped in
  `try` (motioneye/server.py:425-484), so no step is modelled as guarded.
- The motion health check is armed inside `start_motion`. When SMB shares
  are configured and the mount update does not ask for a start, neither
  motion nor the check is started (`Server.RunArmsChecker`).
- A `MOTION_CHECK_INTERVAL` of zero does not disable the check: `start_motion`
  schedules it unconditionally (motioneye/server.py:384-392).
- During the stop loop, an `OSError` other than "No such process" exits with
  status -11 (motioneye/server.py:142-150, `Daemon.AfterProbeErrorOutcome`).

## Left out

- Process plumbing is left out: the fork, `setsid`, `umask`, `dup2` and
  `atexit` mechanics of `daemonize`. They appear only as actions. The trace
  follows only the process that carries on, so the `sys.exit(0)` of each
  fork's parent side is not in it.
- `Daemon.Start` writes "server started" to standard output after the
  redirection to `/dev/null`. It is kept as an action even though nobody
  sees it.
- `configure_signals` is left out: its handlers depend on asynchronous signal
  delivery. The stop signal is the end of `ServeUntilStopped`.
- Tornado is left out: `IOLoop`, `Application`, `make_app`, the
  `handler_mapping` routing table and the template context. Their meaning
  lives in tornado, which is not part of this model.
- Real time is left out: `time.sleep(0.1)` is the action `Sleep`, the check
  interval is the action `ScheduleChecker`, and the `%.2fms` request time in
  `_log_request` is not modelled.
- The internals of `motionctl`, `config`, `cleanup`, `tasks`, `wsswitch`,
  `smbctl` and `mjpgclient` are oracle inputs. `motioneye/mqtt.py` is not
  part of this model.
- Exceptions that the code does not catch are not modelled; each call
  listed here is taken to return normally:
  - in `daemonize`: opening and writing the pid file (motioneye/server.py:91-92).
    `Daemon.Daemonize` always writes it, `Daemon.Start` always ends by
    running the service, and `Daemon.StartWritesOwnPid` relies on the write.
    The write happens before `test_requirements` checks that the run
    directory is writable (lines 255-259). So with an unwritable run
    directory, the final process ends on an uncaught exception after the
    shell has already seen exit 0;
  - in `test_requirements`: the tool lookups `motionctl.find_motion()`,
    `mediafiles.find_ffmpeg()`, `v4l2ctl.find_v4l2_ctl()` and
    `smbctl.find_mount_cifs()` (lines 309-317). Their results are flags of
    the environment oracle;
  - in `checker`: `running()`, `started()` and the camera query;
  - in the stop loop: exceptions other than `OSError`;
  - in `make_media_folders`: `config.get_main()`, `config.get_camera_ids()`
    and `config.get_camera()` (motioneye/server.py:342-346);
  - in `run`: `smbctl.update_mounts()` (line 429), the subsystem starts
    (lines 436-451) and `application.listen` (line 464);
  - in the shut-down of `run` (lines 472-484): an exception from one stop
    would skip every later stop. `Server.Shutdown` always performs all of
    them.
- `parse_options` and `main` are left out. `main` calls
  `meyectl.configure_logging` and `meyectl.configure_tornado`
  (motioneye/server.py:494-495). It then dispatches "start" (background or
  foreground) and "stop" to the modelled operations.
- The informational log lines of `run` (greeting, "started", "stopped",
  farewell) are not in the trace. Only the steps they announce are.
- Messages passed through `_()` are rendered in English.
- `sys.exit(-1)` is the action `Exit(-1)`. It is not reduced to the status
  byte 255 the shell sees.
- PidFile.ParseInt: covers only ASCII `[+-]?[0-9]+`. Python's `int` also
  accepts Unicode digits and `_` separators.
- PidFile.StripLeft: recognises only the ASCII whitespace that `str.isspace`
  accepts, not Unicode spaces.
- PidFile.StripRight: recognises only the ASCII whitespace that
  `str.isspace` accepts, not Unicode spaces.
- RequestLog.MatchesCurrentPictureCorrect: `\d` is taken as the ASCII digits.
  Python's `re` also matches other Unicode decimal digits.

=== FILE: common.dfy ===
/**
  Shared vocabulary of the motionEye server model: optional values, log
  levels, the actions a command or the server emits, and ASCII digit helpers.

  Every operation of the model is a pure function that returns the sequence
  of observable actions (writes to the standard streams, exits, signals,
  log lines, subsystem starts and stops) the Python code performs.
 */
module Common {

  datatype Option<+T> = None | Some(value: T)

  /** The levels of Python's `logging` module used by the server. */
  datatype Level = Debug | Info | Warning | Error | Fatal

  /** The background subsystems `run` starts and stops. */
  datatype Subsystem = Motion | Cleanup | WsSwitch | Tasks | MjpgClient | Smb

  /**
    One observable step. `Fork` stands for a successful `os.fork()` seen from
    the child that carries on: the parent side exits with status 0 at once.
   */
  datatype Action =
    | Stdout(text: string)
    | Stderr(text: string)
    | Exit(code: int)
    | Log(level: Level, text: string)
      // daemonisation and the pid file
    | Fork
    | Setsid
    | ResetUmask
    | RedirectStdio
    | RegisterPidCleanup
    | WritePidFile(content: string)
    | RemovePidFile
    | RunService
      // signals sent by the stop command
    | SendTerm(pid: int)
    | Probe(pid: int)
    | Sleep
    | SendKill(pid: int)
      // server start-up and shut-down
    | MakeDirs(path: string)
    | UpdateMounts
    | StartSubsystem(subsystem: Subsystem)
    | StopSubsystem(subsystem: Subsystem)
    | ScheduleChecker
    | Listen
    | ServeUntilStopped

  /**
    The parts of the `settings` module the server core reads. Integer
    settings are used for their Python truthiness: zero disables.
   */
  datatype Settings = Settings(
    confPath: string,
    runPath: string,
    logPath: string,
    mediaPath: string,
    smbShares: bool,
    cleanupInterval: int,
    mjpgClientTimeout: int)

  /** A trace ends at the first `Exit`: nothing may follow it. */
  predicate ExitOnlyLast(t: seq<Action>) {
    forall k :: 0 <= k < |t| - 1 ==> !t[k].Exit?
  }

  /** The number of occurrences of `a` in the trace `t`. */
  function Count(t: seq<Action>, a: Action): nat {
    if |t| == 0 then 0 else (if t[0] == a then 1 else 0) + Count(t[1..], a)
  }

  lemma {:induction false} CountPositive(t: seq<Action>, a: Action)
    ensures Count(t, a) > 0 <==> a in t
  {
    if |t| > 0 {
      CountPositive(t[1..], a);
      assert t == [t[0]] + t[1..];
    }
  }

  lemma {:induction false} CountAppend(x: seq<Action>, y: seq<Action>, a: Action)
    ensures Count(x + y, a) == Count(x, a) + Count(y, a)
  {
    if |x| == 0 {
      assert x + y == y;
    } else {
      assert (x + y)[0] == x[0];
      assert (x + y)[1..] == x[1..] + y;
      CountAppend(x[1..], y, a);
    }
  }

  predicate IsDigit(c: char) {
    '0' <= c <= '9'
  }

  predicate AllDigits(s: string) {
    forall k :: 0 <= k < |s| ==> IsDigit(s[k])
  }

  function DigitValue(c: char): (d: nat)
    requires IsDigit(c)
    ensures d < 10
  {
    c as int - '0' as int
  }

  function DigitChar(d: nat): (c: char)
    requires d < 10
    ensures IsDigit(c) && DigitValue(c) == d
  {
    ('0' as int + d) as char
  }

  predicate IsPrefix(p: string, s: string) {
    |p| <= |s| && s[..|p|] == p
  }
}

=== FILE: daemon.dfy ===
/**
  The `Daemon` class: the double-fork daemonisation, the pid file removal,
  and the `start` and `stop` commands with their guards and the bounded
  stop-polling loop.

  The operating system is an oracle: fork results, the result of each
  `os.kill(pid, 0)` probe, and whether removing the pid file or sending
  SIGTERM/SIGKILL fails are inputs, and each command returns the trace of
  actions it performs.
 */
module Daemon {
  import opened Common
  import opened PidFile

  datatype ForkResult = ForkOk | ForkFailed(strerror: string)

  /** Oracle answers for `daemonize`: the two forks and the final process's pid. */
  datatype DaemonizeOracle = DaemonizeOracle(first: ForkResult, second: ForkResult, finalPid: int)

  /** The result of one `os.kill(pid, 0)` in the stop loop: no error, or an `OSError` with its text. */
  datatype ProbeOutcome = Alive | OsError(message: string)

  /**
    Oracle answers for `stop`: the error (if any) of sending SIGTERM, the
    outcome of the k-th liveness probe (counted from 0), and whether removing
    the pid file and sending SIGKILL succeed.
   */
  datatype StopOracle = StopOracle(
    termError: Option<string>,
    probe: nat -> ProbeOutcome,
    removeOk: bool,
    killOk: bool)

  /** `range(50)` in `stop`: the number of liveness probes before escalating. */
  const MaxProbes: nat := 50

  const NoSuchProcess: string := "No such process"

  /** What `stop` writes when it escalates to SIGKILL, and when that fails. */
  const KillingNotice: string := "server failed to stop, killing it\n"
  const KillFailedNotice: string := "failed to kill...\n"

  /** `sub` occurs in `s`; `str.count(sub)` is non-zero exactly then. */
  predicate Contains(s: string, sub: string)
    decreases |s|
  {
    IsPrefix(sub, s) || (|s| > 0 && Contains(s[1..], sub))
  }

  predicate Daemonized(o: DaemonizeOracle) {
    o.first.ForkOk? && o.second.ForkOk?
  }

  /**
    `Daemon.daemonize`, followed from the process that carries on. A failed
    fork writes its reason and exits with -1; otherwise the grandchild
    detaches, registers the pid file cleanup and writes its own pid.
   */
  function Daemonize(o: DaemonizeOracle): (t: seq<Action>)
    ensures ExitOnlyLast(t)
    ensures Daemonized(o) ==> WritePidFile(FormatPid(o.finalPid)) in t && !(Exit(-1) in t)
    ensures Daemonized(o) ==> forall c :: WritePidFile(c) in t ==> c == FormatPid(o.finalPid)
    ensures !Daemonized(o) ==> |t| > 0 && t[|t| - 1] == Exit(-1) && forall c :: !(WritePidFile(c) in t)
  {
    match o.first
    case ForkFailed(e) => [Stderr("fork() failed: " + e + "\n"), Exit(-1)]
    case ForkOk =>
      [Fork, Setsid, ResetUmask] +
      match o.second
      case ForkFailed(e) => [Stderr("fork() failed: " + e + "\n"), Exit(-1)]
      case ForkOk =>
        [Fork, RedirectStdio, RegisterPidCleanup, WritePidFile(FormatPid(o.finalPid))]
  }

  /** `Daemon.del_pid`: remove the pid file; a failure is only reported. */
  function DelPid(removeOk: bool): (t: seq<Action>)
    ensures |t| > 0 && t[0] == RemovePidFile && forall c :: !(Exit(c) in t)
    ensures removeOk <==> |t| == 1
    ensures !removeOk ==> t[1..] == [Stderr("failed to remove pid file.\n")]
  {
    [RemovePidFile] + if removeOk then [] else [Stderr("failed to remove pid file.\n")]
  }

  /**
    `Daemon.start`: refuses when an instance is live, before any fork or pid
    file write; otherwise daemonizes, announces the start and runs the service.
   */
  function Start(running: Option<int>, o: DaemonizeOracle): (t: seq<Action>)
    ensures ExitOnlyLast(t)
    ensures Truthy(running) ==>
      |t| > 0 && t[|t| - 1] == Exit(-1) && Stderr("server is already running\n") in t
      && !(Fork in t) && !(RunService in t) && forall c :: !(WritePidFile(c) in t)
    ensures !Truthy(running) && Daemonized(o) ==>
      WritePidFile(FormatPid(o.finalPid)) in t && |t| > 0 && t[|t| - 1] == RunService
    ensures !Truthy(running) && Daemonized(o) ==>
      forall c :: WritePidFile(c) in t ==> c == FormatPid(o.finalPid)
    ensures !Truthy(running) && !Daemonized(o) ==>
      |t| > 0 && t[|t| - 1] == Exit(-1) && !(RunService in t)
      && !(Stdout("server started\n") in t) && forall c :: !(WritePidFile(c) in t)
  {
    if Truthy(running) then
      [Stderr("server is already running\n"), Exit(-1)]
    else
      Daemonize(o) + if Daemonized(o) then [Stdout("server started\n"), RunService] else []
  }

  /** The report of a failed SIGTERM; `stop` carries on polling after it. */
  function TermReport(termError: Option<string>): seq<Action> {
    match termError
    case None => []
    case Some(e) => [Stderr("failed to terminate server: " + e + "\n")]
  }

  /**
    The `for i in range(50)` loop of `stop` from iteration `i` on, with its
    `else` branch: a live process is probed again after a pause; "No such
    process" removes the pid file and reports the stop (`break`); any other
    `OSError` exits with -11; running out of iterations escalates to SIGKILL.
   */
  function Poll(pid: int, o: StopOracle, i: nat): seq<Action>
    requires i <= MaxProbes
    decreases MaxProbes - i
  {
    if i == MaxProbes then
      [Stderr(KillingNotice), SendKill(pid)]
      + if o.killOk then [] else [Stderr(KillFailedNotice)]
    else
      match o.probe(i)
      case Alive => [Probe(pid), Sleep] + Poll(pid, o, i + 1)
      case OsError(m) => [Probe(pid)] + AfterProbeError(m, o.removeOk)
  }

  /**
    What follows a probe that raised `OSError` with text `m`: "No such
    process" means the server is gone; anything else exits with -11.
   */
  function AfterProbeError(m: string, removeOk: bool): seq<Action> {
    if Contains(m, NoSuchProcess) then DelPid(removeOk) + [Stdout("server stopped\n")]
    else [Stderr("failed to terminate server: " + m + "\n"), Exit(-11)]
  }

  /**
    The two outcomes of a failed probe: the server is gone and only the pid
    file is cleaned up, or the error is fatal; neither signals anything.
   */
  lemma AfterProbeErrorOutcome(m: string, removeOk: bool)
    ensures var t := AfterProbeError(m, removeOk);
      && |t| > 0 && ExitOnlyLast(t)
      && (Contains(m, NoSuchProcess) ==>
            RemovePidFile in t && Stdout("server stopped\n") in t && forall c :: !(Exit(c) in t))
      && (!Contains(m, NoSuchProcess) ==> t[|t| - 1] == Exit(-11) && !(RemovePidFile in t))
      && forall p :: !(Probe(p) in t) && !(SendKill(p) in t) && !(SendTerm(p) in t)
  {
  }

  /** `Daemon.stop`, as a function of what `running()` returned. */
  function StopTrace(running: Option<int>, o: StopOracle): seq<Action> {
    if !Truthy(running) then
      [Stderr("server is not running\n"), Exit(-1)]
    else
      [SendTerm(running.value)] + TermReport(o.termError) + Poll(running.value, o, 0)
  }

  /** `Daemon.stop`: the not-running report, or SIGTERM followed by the polling loop. */
  method Stop(running: Option<int>, o: StopOracle) returns (t: seq<Action>)
    ensures t == StopTrace(running, o)
  {
    if !Truthy(running) {
      return [Stderr("server is not running\n"), Exit(-1)];
    }
    var polled := PollLoop(running.value, o);
    t := [SendTerm(running.value)] + TermReport(o.termError) + polled;
  }

  /**
    The polling loop of `Daemon.stop` written as its Python `for` loop: a `for`
    whose `break` skips the `else` branch, which runs only when all iterations
    found the process alive. Nothing follows the loop in `stop`, so `break` is
    a return here.
   */
  method PollLoop(pid: int, o: StopOracle) returns (t: seq<Action>)
    ensures t == Poll(pid, o, 0)
  {
    t := [];
    var i := 0;
    while i < MaxProbes
      invariant i <= MaxProbes
      invariant t == Waits(pid, i)
      invariant forall j :: 0 <= j < i ==> o.probe(j).Alive?
    {
      match o.probe(i) {
        case Alive =>
          t := t + [Probe(pid), Sleep];
        case OsError(m) =>
          PollAfterAlive(pid, o, 0, i);
          t := t + ([Probe(pid)] + AfterProbeError(m, o.removeOk));
          return;
      }
      i := i + 1;
    }
    PollAfterAlive(pid, o, 0, MaxProbes);
    t := t + ([Stderr(KillingNotice), SendKill(pid)]
              + if o.killOk then [] else [Stderr(KillFailedNotice)]);
  }

  /** `n` rounds of a probe that found the process alive followed by the pause. */
  function Waits(pid: int, n: nat): (t: seq<Action>)
    ensures Count(t, Probe(pid)) == n
    ensures forall a :: a in t ==> a == Probe(pid) || a == Sleep
  {
    if n == 0 then [] else
      var rest := Waits(pid, n - 1);
      var round := [Probe(pid), Sleep];
      assert round[1..] == [Sleep] && [Sleep][1..] == [];
      assert Count([Sleep], Probe(pid)) == 0;
      assert Count(round, Probe(pid)) == 1;
      CountAppend(rest, round, Probe(pid));
      rest + round
  }

  /**
    When probes `j .. i - 1` all find the process alive, the loop from
    iteration `j` is `i - j` rounds of waiting followed by the loop from `i`.
   */
  lemma {:induction false} PollAfterAlive(pid: int, o: StopOracle, j: nat, i: nat)
    requires j <= i <= MaxProbes
    requires forall q :: j <= q < i ==> o.probe(q).Alive?
    ensures Poll(pid, o, j) == Waits(pid, i - j) + Poll(pid, o, i)
    decreases i
  {
    if j < i {
      PollAfterAlive(pid, o, j, i - 1);
      var w, round, rest := Waits(pid, i - 1 - j), [Probe(pid), Sleep], Poll(pid, o, i);
      assert o.probe(i - 1).Alive?;
      assert Poll(pid, o, i - 1) == round + rest;
      assert Waits(pid, i - j) == w + round;
      assert w + (round + rest) == (w + round) + rest;
    }
  }

  /** Probes `i .. MaxProbes - 1` all find the process alive. */
  predicate AliveFrom(o: StopOracle, i: nat) {
    forall j :: i <= j < MaxProbes ==> o.probe(j).Alive?
  }

  /** Probe `k` is the first whose outcome is not `Alive`. */
  predicate FirstGone(o: StopOracle, k: nat) {
    k < MaxProbes && o.probe(k).OsError? && forall j :: 0 <= j < k ==> o.probe(j).Alive?
  }

  lemma {:induction false} PollExitOnlyLast(pid: int, o: StopOracle, i: nat)
    requires i <= MaxProbes
    ensures ExitOnlyLast(Poll(pid, o, i))
    decreases MaxProbes - i
  {
    if i < MaxProbes && o.probe(i).Alive? {
      PollExitOnlyLast(pid, o, i + 1);
    } else if i < MaxProbes {
      AfterProbeErrorOutcome(o.probe(i).message, o.removeOk);
    }
  }

  lemma {:induction false} PollProbeBound(pid: int, o: StopOracle, i: nat)
    requires i <= MaxProbes
    ensures Count(Poll(pid, o, i), Probe(pid)) <= MaxProbes - i
    decreases MaxProbes - i
  {
    if i == MaxProbes {
      CountPositive(Poll(pid, o, i), Probe(pid));
    } else if o.probe(i).Alive? {
      PollProbeBound(pid, o, i + 1);
      CountAppend([Probe(pid), Sleep], Poll(pid, o, i + 1), Probe(pid));
    } else {
      var tail := AfterProbeError(o.probe(i).message, o.removeOk);
      AfterProbeErrorOutcome(o.probe(i).message, o.removeOk);
      CountPositive(tail, Probe(pid));
      CountAppend([Probe(pid)], tail, Probe(pid));
    }
  }

  /** The loop's `else` branch sends SIGKILL exactly once. */
  lemma KillOnceAtEnd(pid: int, o: StopOracle)
    ensures Count(Poll(pid, o, MaxProbes), SendKill(pid)) == 1
  {
    var kill := [Stderr(KillingNotice), SendKill(pid)];
    var report := if o.killOk then [] else [Stderr(KillFailedNotice)];
    CountAppend(kill, report, SendKill(pid));
  }

  /** A probe that raises ends the loop without SIGKILL. */
  lemma NoKillAfterError(pid: int, o: StopOracle, i: nat)
    requires i < MaxProbes && o.probe(i).OsError?
    ensures !(SendKill(pid) in Poll(pid, o, i))
  {
    AfterProbeErrorOutcome(o.probe(i).message, o.removeOk);
  }

  lemma {:induction false} PollKill(pid: int, o: StopOracle, i: nat)
    requires i <= MaxProbes
    ensures Count(Poll(pid, o, i), SendKill(pid)) == (if AliveFrom(o, i) then 1 else 0)
    decreases MaxProbes - i
  {
    if i == MaxProbes {
      KillOnceAtEnd(pid, o);
    } else if o.probe(i).Alive? {
      PollKill(pid, o, i + 1);
      CountAppend([Probe(pid), Sleep], Poll(pid, o, i + 1), SendKill(pid));
      assert AliveFrom(o, i) <==> AliveFrom(o, i + 1);
    } else {
      NoKillAfterError(pid, o, i);
      CountPositive(Poll(pid, o, i), SendKill(pid));
      assert !AliveFrom(o, i);
    }
  }

  /**
    When probe `k` is the first to raise, the loop from iteration `i` is
    `k - i` rounds of waiting, the failing probe, and what that error decides.
   */
  lemma PollGone(pid: int, o: StopOracle, i: nat, k: nat)
    requires i <= k && FirstGone(o, k)
    ensures Poll(pid, o, i) == Waits(pid, k - i) + [Probe(pid)] + AfterProbeError(o.probe(k).message, o.removeOk)
  {
    PollAfterAlive(pid, o, i, k);
    var w, e := Waits(pid, k - i), AfterProbeError(o.probe(k).message, o.removeOk);
    assert Poll(pid, o, k) == [Probe(pid)] + e;
    assert w + ([Probe(pid)] + e) == w + [Probe(pid)] + e;
  }

  /** Stop when nothing is running: refuse with -1, send no signal at all. */
  lemma StopNotRunning(running: Option<int>, o: StopOracle)
    requires !Truthy(running)
    ensures var t := StopTrace(running, o);
      && t[|t| - 1] == Exit(-1)
      && Stderr("server is not running\n") in t
      && forall p :: !(SendTerm(p) in t) && !(Probe(p) in t) && !(SendKill(p) in t)
  {
  }

  /**
    Stop of a live pid: SIGTERM is sent first; polling follows even when
    SIGTERM failed; at most 50 probes are made; the trace ends at its only
    exit, if any; SIGKILL is sent exactly once iff all 50 probes find the
    process alive, and never otherwise.
   */
  lemma StopRunning(running: Option<int>, o: StopOracle)
    requires Truthy(running)
    ensures var t := StopTrace(running, o); var pid := running.value;
      && t[0] == SendTerm(pid)
      && Probe(pid) in t
      && (o.termError.Some? ==> Stderr("failed to terminate server: " + o.termError.value + "\n") in t)
      && Count(t, Probe(pid)) <= MaxProbes
      && ExitOnlyLast(t)
      && Count(t, SendKill(pid)) == (if AliveFrom(o, 0) then 1 else 0)
  {
    var pid := running.value;
    var head := [SendTerm(pid)] + TermReport(o.termError);
    var poll := Poll(pid, o, 0);
    var t := StopTrace(running, o);
    assert t == head + poll;
    PollExitOnlyLast(pid, o, 0);
    assert ExitOnlyLast(t);
    PollProbeBound(pid, o, 0);
    CountAppend(head, poll, Probe(pid));
    PollKill(pid, o, 0);
    CountAppend(head, poll, SendKill(pid));
    assert poll[0] == Probe(pid);
    assert t[|head|] == Probe(pid);
  }

  /** When probe `k` is the first to raise, the polling loop makes `k + 1` probes. */
  lemma PollGoneProbes(pid: int, o: StopOracle, k: nat)
    requires FirstGone(o, k)
    ensures Count(Poll(pid, o, 0), Probe(pid)) == k + 1
  {
    PollGone(pid, o, 0, k);
    var waits := Waits(pid, k);
    var tail := AfterProbeError(o.probe(k).message, o.removeOk);
    AfterProbeErrorOutcome(o.probe(k).message, o.removeOk);
    CountPositive(tail, Probe(pid));
    CountAppend(waits, [Probe(pid)], Probe(pid));
    CountAppend(waits + [Probe(pid)], tail, Probe(pid));
  }

  /** Stop of a live pid whose probe `k` is the first to raise makes exactly `k + 1` probes. */
  lemma StopGoneProbes(running: Option<int>, o: StopOracle, k: nat)
    requires Truthy(running) && FirstGone(o, k)
    ensures Count(StopTrace(running, o), Probe(running.value)) == k + 1
  {
    var pid := running.value;
    var head := [SendTerm(pid)] + TermReport(o.termError);
    var rest := Poll(pid, o, 0);
    assert StopTrace(running, o) == head + rest;
    PollGoneProbes(pid, o, k);
    CountPositive(head, Probe(pid));
    CountAppend(head, rest, Probe(pid));
  }

  /** The phases of a stop whose probe `k` is the first to raise. */
  lemma StopGoneLayout(running: Option<int>, o: StopOracle, k: nat)
    requires Truthy(running) && FirstGone(o, k)
    ensures StopTrace(running, o) == [SendTerm(running.value)] + TermReport(o.termError)
      + Waits(running.value, k) + [Probe(running.value)] + AfterProbeError(o.probe(k).message, o.removeOk)
  {
    PollGone(running.value, o, 0, k);
  }

  /**
    Stop of a live pid whose probe `k` is the first to raise: the outcome is
    decided by that probe's error alone, and SIGKILL is never sent.
    "No such process" removes the pid file and reports the stop without an
    exit; any other error ends the trace with exit -11.
   */
  lemma StopGone(running: Option<int>, o: StopOracle, k: nat)
    requires Truthy(running) && FirstGone(o, k)
    ensures !(SendKill(running.value) in StopTrace(running, o))
    ensures Contains(o.probe(k).message, NoSuchProcess) ==>
      && RemovePidFile in StopTrace(running, o)
      && Stdout("server stopped\n") in StopTrace(running, o)
      && forall c :: !(Exit(c) in StopTrace(running, o))
    ensures !Contains(o.probe(k).message, NoSuchProcess) ==>
      && StopTrace(running, o)[|StopTrace(running, o)| - 1] == Exit(-11)
      && !(RemovePidFile in StopTrace(running, o))
  {
    var pid := running.value;
    var head := [SendTerm(pid)] + TermReport(o.termError);
    var waits := Waits(pid, k);
    var tail := AfterProbeError(o.probe(k).message, o.removeOk);
    AfterProbeErrorOutcome(o.probe(k).message, o.removeOk);
    StopGoneLayout(running, o, k);
    var t := head + waits + [Probe(pid)] + tail;
    assert t[|t| - 1] == tail[|tail| - 1];
    assert !(SendKill(pid) in waits) && !(SendKill(pid) in head);
    assert !(RemovePidFile in waits) && !(RemovePidFile in head);
    forall c
      ensures !(Exit(c) in waits) && !(Exit(c) in head)
    {
    }
  }

  /**
    The start guard and the pid file agree: after a successful background
    start, `running` reads the written file back as the final process's pid
    while that process is alive.
   */
  lemma StartWritesOwnPid(running: Option<int>, o: DaemonizeOracle, alive: int -> bool)
    requires !Truthy(running) && Daemonized(o) && alive(o.finalPid)
    ensures WritePidFile(FormatPid(o.finalPid)) in Start(running, o)
    ensures forall c :: WritePidFile(c) in Start(running, o) ==> Running(Text(c), alive) == Some(o.finalPid)
  {
    RunningAfterWrite(o.finalPid, alive);
  }
}

=== FILE: media.dfy ===
/**
  `make_media_folders`: for every configured camera with a `target_dir`
  that does not exist yet, `os.makedirs` is attempted; a failure is logged
  and the loop goes on with the next camera.

  The camera configuration and the file system are oracle inputs: per
  camera, its id, its `target_dir` (if any), whether that path exists, and
  the error `os.makedirs` would raise (if any).
 */
module MediaFolders {
  import opened Common
  import PidFile

  datatype CameraFolder = CameraFolder(
    cameraId: int,
    targetDir: Option<string>,
    dirExists: bool,
    makeError: Option<string>)

  /** The camera's folder has to be created. */
  predicate NeedsFolder(c: CameraFolder) {
    c.targetDir.Some? && !c.dirExists
  }

  function FailureMessage(c: CameraFolder, dir: string, e: string): string {
    "failed to create root media folder \"" + dir + "\" for camera with id "
    + PidFile.FormatInt(c.cameraId) + ": " + e
  }

  /** The body of the loop for one camera. */
  function FolderStep(c: CameraFolder): (t: seq<Action>)
    ensures NeedsFolder(c) <==> c.targetDir.Some? && MakeDirs(c.targetDir.value) in t
    ensures NeedsFolder(c) && c.makeError.Some? ==>
      Log(Error, FailureMessage(c, c.targetDir.value, c.makeError.value)) in t
    ensures forall a :: a in t ==> a.MakeDirs? || a.Log?
    ensures forall a :: a in t && a.MakeDirs? ==> NeedsFolder(c) && a.path == c.targetDir.value
    ensures forall a :: a in t && a.Log? ==>
      NeedsFolder(c) && c.makeError.Some? && a == Log(Error, FailureMessage(c, c.targetDir.value, c.makeError.value))
  {
    match c.targetDir
    case None => []
    case Some(dir) =>
      if c.dirExists then []
      else
        [MakeDirs(dir)]
        + match c.makeError
          case None => []
          case Some(e) => [Log(Error, FailureMessage(c, dir, e))]
  }

  /** The whole loop over the cameras, in their order. */
  function MediaFolders(cams: seq<CameraFolder>): seq<Action> {
    if |cams| == 0 then [] else MediaFolders(cams[..|cams| - 1]) + FolderStep(cams[|cams| - 1])
  }

  /** `make_media_folders` as its Python `for` loop over the camera ids. */
  method MakeMediaFolders(cams: seq<CameraFolder>) returns (t: seq<Action>)
    ensures t == MediaFolders(cams)
  {
    t := [];
    var i := 0;
    while i < |cams|
      invariant i <= |cams|
      invariant t == MediaFolders(cams[..i])
    {
      assert cams[..i + 1][..i] == cams[..i];
      t := t + FolderStep(cams[i]);
      i := i + 1;
    }
    assert cams[..i] == cams;
  }

  /** `a` is the error line of some camera whose `os.makedirs` failed. */
  ghost predicate FailureLogged(cams: seq<CameraFolder>, a: Action) {
    exists i :: 0 <= i < |cams| && NeedsFolder(cams[i]) && cams[i].makeError.Some?
      && a == Log(Error, FailureMessage(cams[i], cams[i].targetDir.value, cams[i].makeError.value))
  }

  /**
    A folder is created for a directory exactly when some camera has it as
    `target_dir` and it does not exist; a failure at one camera neither
    stops the loop nor hides the later cameras' attempts, each failure is
    logged, and nothing else is logged.
   */
  lemma {:induction false} MediaFoldersAttempts(cams: seq<CameraFolder>)
    ensures forall d :: MakeDirs(d) in MediaFolders(cams) <==>
      exists i :: 0 <= i < |cams| && NeedsFolder(cams[i]) && cams[i].targetDir.value == d
    ensures forall i :: 0 <= i < |cams| && NeedsFolder(cams[i]) && cams[i].makeError.Some? ==>
      Log(Error, FailureMessage(cams[i], cams[i].targetDir.value, cams[i].makeError.value)) in MediaFolders(cams)
    ensures forall a :: a in MediaFolders(cams) ==> a.MakeDirs? || a.Log?
    ensures forall a :: a in MediaFolders(cams) && a.Log? ==> FailureLogged(cams, a)
  {
    if |cams| > 0 {
      var init := cams[..|cams| - 1];
      var last := cams[|cams| - 1];
      MediaFoldersAttempts(init);
      forall d
        ensures MakeDirs(d) in MediaFolders(cams) <==>
          exists i :: 0 <= i < |cams| && NeedsFolder(cams[i]) && cams[i].targetDir.value == d
      {
        if MakeDirs(d) in MediaFolders(cams) {
          if MakeDirs(d) in MediaFolders(init) {
            var i :| 0 <= i < |init| && NeedsFolder(init[i]) && init[i].targetDir.value == d;
            assert cams[i] == init[i];
          } else {
            assert MakeDirs(d) in FolderStep(last);
            assert cams[|cams| - 1] == last;
          }
        }
        if exists i :: 0 <= i < |cams| && NeedsFolder(cams[i]) && cams[i].targetDir.value == d {
          var i :| 0 <= i < |cams| && NeedsFolder(cams[i]) && cams[i].targetDir.value == d;
          if i < |cams| - 1 {
            assert init[i] == cams[i];
          }
        }
      }
      forall i | 0 <= i < |cams| && NeedsFolder(cams[i]) && cams[i].makeError.Some?
        ensures Log(Error, FailureMessage(cams[i], cams[i].targetDir.value, cams[i].makeError.value)) in MediaFolders(cams)
      {
        if i < |cams| - 1 {
          assert init[i] == cams[i];
        }
      }
      forall a | a in MediaFolders(cams) && a.Log?
        ensures FailureLogged(cams, a)
      {
        if a in MediaFolders(init) {
          var i :| 0 <= i < |init| && NeedsFolder(init[i]) && init[i].makeError.Some?
            && a == Log(Error, FailureMessage(init[i], init[i].targetDir.value, init[i].makeError.value));
          assert cams[i] == init[i];
        } else {
          assert a in FolderStep(last);
          assert cams[|cams| - 1] == last;
        }
      }
    }
  }
}

=== FILE: motion.dfy ===
/**
  `start_motion` and its health check `checker`. The check restarts motion
  when motion is not running, was started before, and some enabled local
  camera needs it; every firing schedules the next one, also when the
  restart raised, because that exception is caught and logged.

  `motionctl.running()`, `motionctl.started()`, the enabled cameras and the
  outcome of `motionctl.start()` are oracle inputs; scheduling the next
  check after `MOTION_CHECK_INTERVAL` seconds is the action `ScheduleChecker`.
 */
module MotionSupervisor {
  import opened Common

  /** What one firing of the check observes, and the error a restart would raise. */
  datatype CheckerState = CheckerState(
    motionRunning: bool,
    motionStarted: bool,
    enabledCameras: seq<int>,
    restartError: Option<string>)

  /** The condition under which `checker` restarts motion. */
  predicate RestartDue(c: CheckerState) {
    !c.motionRunning && c.motionStarted && |c.enabledCameras| > 0
  }

  /** `start_motion`: one start attempt whose failure is only logged, then the check is armed. */
  function StartMotion(startError: Option<string>): (t: seq<Action>)
    ensures Count(t, StartSubsystem(Motion)) == 1 && Count(t, ScheduleChecker) == 1
    ensures t[0] == StartSubsystem(Motion) && t[|t| - 1] == ScheduleChecker
    ensures startError.Some? ==> Log(Error, startError.value) in t
    ensures startError.None? ==> forall a :: a in t ==> !a.Log?
    ensures forall c :: !(Exit(c) in t)
  {
    var failure := match startError case None => [] case Some(e) => [Log(Error, e)];
    CountPositive(failure, StartSubsystem(Motion));
    CountPositive(failure, ScheduleChecker);
    CountAppend([StartSubsystem(Motion)], failure, StartSubsystem(Motion));
    CountAppend([StartSubsystem(Motion)] + failure, [ScheduleChecker], StartSubsystem(Motion));
    CountAppend([StartSubsystem(Motion)], failure, ScheduleChecker);
    CountAppend([StartSubsystem(Motion)] + failure, [ScheduleChecker], ScheduleChecker);
    [StartSubsystem(Motion)] + failure + [ScheduleChecker]
  }

  /** The error line `checker` logs before it restarts motion. */
  const RestartNotice: Action := Log(Error, "motion not running, starting it")

  /** The error line `checker` logs when the restart raised `e`. */
  function RestartFailed(e: string): Action {
    Log(Error, "failed to start motion: " + e)
  }

  /**
    The log lines one firing of the check may write: the notice and, when
    the restart raised, its failure line; a firing that does not restart
    writes none.
   */
  predicate LoggedBy(c: CheckerState, a: Action) {
    RestartDue(c) && (a == RestartNotice || (c.restartError.Some? && a == RestartFailed(c.restartError.value)))
  }

  /** The restart branch of `checker`: log, start once, and log a failed start. */
  function Restart(restartError: Option<string>): (t: seq<Action>)
    ensures Count(t, StartSubsystem(Motion)) == 1 && !(ScheduleChecker in t)
    ensures Count(t, RestartNotice) == 1
    ensures restartError.Some? ==> RestartFailed(restartError.value) in t
    ensures restartError.None? ==> |t| == 2
    ensures forall a :: a in t && a.Log? ==>
      a == RestartNotice || (restartError.Some? && a == RestartFailed(restartError.value))
    ensures forall k :: !(Exit(k) in t)
  {
    var announce := [RestartNotice, StartSubsystem(Motion)];
    var failure := match restartError case None => [] case Some(e) => [RestartFailed(e)];
    assert forall e :: RestartFailed(e) != RestartNotice by {
      forall e ensures RestartFailed(e) != RestartNotice {
        assert RestartFailed(e).text[0] != RestartNotice.text[0];
      }
    }
    CountPositive(failure, StartSubsystem(Motion));
    CountPositive(failure, RestartNotice);
    CountAppend(announce, failure, StartSubsystem(Motion));
    CountAppend(announce, failure, RestartNotice);
    assert announce[1..] == [StartSubsystem(Motion)] && [StartSubsystem(Motion)][1..] == [];
    announce + failure
  }

  /**
    One firing of `checker`: motion is started exactly when the restart
    condition holds, and exactly one follow-up check is scheduled, as the
    last action, whether or not the restart failed.
   */
  function CheckerStep(c: CheckerState): (t: seq<Action>)
    ensures Count(t, StartSubsystem(Motion)) == (if !c.motionRunning && c.motionStarted && |c.enabledCameras| > 0 then 1 else 0)
    ensures Count(t, ScheduleChecker) == 1 && t[|t| - 1] == ScheduleChecker
    ensures Count(t, RestartNotice) == (if !c.motionRunning && c.motionStarted && |c.enabledCameras| > 0 then 1 else 0)
    ensures !(!c.motionRunning && c.motionStarted && |c.enabledCameras| > 0) ==> t == [ScheduleChecker]
    ensures forall a :: a in t && a.Log? ==> a.level == Error && LoggedBy(c, a)
    ensures forall k :: !(Exit(k) in t)
  {
    if RestartDue(c) then
      var restart := Restart(c.restartError);
      CountPositive(restart, ScheduleChecker);
      CountAppend(restart, [ScheduleChecker], StartSubsystem(Motion));
      CountAppend(restart, [ScheduleChecker], ScheduleChecker);
      CountAppend(restart, [ScheduleChecker], RestartNotice);
      restart + [ScheduleChecker]
    else
      [ScheduleChecker]
  }

  /** The number of firings in `cs` whose restart condition holds. */
  function RestartsDue(cs: seq<CheckerState>): nat {
    if |cs| == 0 then 0 else RestartsDue(cs[..|cs| - 1]) + (if RestartDue(cs[|cs| - 1]) then 1 else 0)
  }

  /** Successive firings of the check, each observing the state in `cs`. */
  function CheckerRun(cs: seq<CheckerState>): seq<Action> {
    if |cs| == 0 then [] else CheckerRun(cs[..|cs| - 1]) + CheckerStep(cs[|cs| - 1])
  }

  /**
    Over any run of the check, the chain of follow-ups never breaks: each
    firing schedules exactly one successor, and motion is restarted (and the
    restart announced) once per firing whose condition held and at no other
    time. Every log line comes from a firing whose condition held.
   */
  lemma {:induction false} CheckerRunCounts(cs: seq<CheckerState>)
    ensures Count(CheckerRun(cs), ScheduleChecker) == |cs|
    ensures Count(CheckerRun(cs), StartSubsystem(Motion)) == RestartsDue(cs)
    ensures Count(CheckerRun(cs), RestartNotice) == RestartsDue(cs)
    ensures |cs| > 0 ==> CheckerRun(cs)[|CheckerRun(cs)| - 1] == ScheduleChecker
    ensures forall a :: a in CheckerRun(cs) && a.Log? ==> exists i :: 0 <= i < |cs| && LoggedBy(cs[i], a)
  {
    if |cs| > 0 {
      var init := cs[..|cs| - 1];
      var last := cs[|cs| - 1];
      CheckerRunCounts(init);
      CountAppend(CheckerRun(init), CheckerStep(last), ScheduleChecker);
      CountAppend(CheckerRun(init), CheckerStep(last), StartSubsystem(Motion));
      CountAppend(CheckerRun(init), CheckerStep(last), RestartNotice);
      forall a | a in CheckerRun(cs) && a.Log?
        ensures exists i :: 0 <= i < |cs| && LoggedBy(cs[i], a)
      {
        if a in CheckerRun(init) {
          var i :| 0 <= i < |init| && LoggedBy(init[i], a);
          assert cs[i] == init[i];
        } else {
          assert a in CheckerStep(last);
          assert LoggedBy(cs[|cs| - 1], a);
        }
      }
    }
  }

  /** All eight combinations of the three conditions: only one of them restarts motion. */
  lemma RestartTruthTable(running: bool, started: bool, cameras: seq<int>, err: Option<string>)
    ensures var t := CheckerStep(CheckerState(running, started, cameras, err));
      StartSubsystem(Motion) in t <==> !running && started && cameras != []
  {
    var t := CheckerStep(CheckerState(running, started, cameras, err));
    CountPositive(t, StartSubsystem(Motion));
  }
}

=== FILE: pidfile.dfy ===
/**
  The pid file of the daemon: the text `Daemon.daemonize` writes
  (`'%s\n' % pid`), the parser `Daemon.running` applies (`int(text.strip())`),
  and the "absent on any failure" liveness query built on top of them.

  Python's `str.strip` and `int` accept Unicode whitespace, Unicode digits and
  `_` separators; the model covers the ASCII subset: whitespace is the ASCII
  characters Python's `str.isspace` accepts, and an integer is `[+-]?[0-9]+`.
 */
module PidFile {
  import opened Common

  /** ASCII characters `str.isspace` accepts: TAB..CR, FS..US and space. */
  predicate IsSpace(c: char) {
    c == ' ' || (9 <= c as int <= 13) || (28 <= c as int <= 31)
  }

  function StripLeft(s: string): (r: string)
    ensures |r| <= |s| && r == s[|s| - |r|..]
    ensures forall k :: 0 <= k < |s| - |r| ==> IsSpace(s[k])
    ensures |r| > 0 ==> !IsSpace(r[0])
  {
    if |s| > 0 && IsSpace(s[0]) then StripLeft(s[1..]) else s
  }

  function StripRight(s: string): (r: string)
    ensures |r| <= |s| && r == s[..|r|]
    ensures forall k :: |r| <= k < |s| ==> IsSpace(s[k])
    ensures |r| > 0 ==> !IsSpace(r[|r| - 1])
  {
    if |s| > 0 && IsSpace(s[|s| - 1]) then StripRight(s[..|s| - 1]) else s
  }

  /** Python's `str.strip()` with no argument. */
  function Strip(s: string): (r: string)
    ensures |r| > 0 ==> !IsSpace(r[0]) && !IsSpace(r[|r| - 1])
  {
    StripRight(StripLeft(s))
  }

  /** Decimal digits of a natural number, most significant first, no leading zero. */
  function NatDigits(n: nat): (r: string)
    ensures |r| >= 1 && AllDigits(r)
    ensures r[0] == '0' ==> n == 0 && |r| == 1
    decreases n
  {
    if n < 10 then [DigitChar(n)] else NatDigits(n / 10) + [DigitChar(n % 10)]
  }

  /** The value of a string of decimal digits. */
  function DigitsValue(s: string): nat
    requires AllDigits(s)
  {
    if |s| == 0 then 0 else 10 * DigitsValue(s[..|s| - 1]) + DigitValue(s[|s| - 1])
  }

  /** Python's `str(n)` for an `int`. */
  function FormatInt(n: int): (r: string)
    ensures |r| >= 1 && IsDigit(r[|r| - 1])
    ensures n < 0 <==> r[0] == '-'
    ensures n >= 0 ==> AllDigits(r)
  {
    if n < 0 then "-" + NatDigits(-n) else NatDigits(n)
  }

  /** The pid file content written by `daemonize`: `'%s\n' % pid`. */
  function FormatPid(pid: int): (r: string)
    ensures |r| >= 2 && r[|r| - 1] == '\n'
  {
    FormatInt(pid) + "\n"
  }

  /** Python's `int(s)` on the ASCII subset `[+-]?[0-9]+`; `None` where `int` raises. */
  function ParseInt(s: string): (r: Option<int>)
    ensures r.Some? <==> (|s| >= 1 && AllDigits(s[1..])
                          && (IsDigit(s[0]) || ((s[0] == '+' || s[0] == '-') && |s| >= 2)))
    ensures r.Some? && IsDigit(s[0]) ==> r.value == DigitsValue(s)
    ensures r.Some? && s[0] == '+' ==> r.value == DigitsValue(s[1..])
    ensures r.Some? && s[0] == '-' ==> r.value == -(DigitsValue(s[1..]) as int)
    ensures r.Some? ==> (r.value < 0 ==> s[0] == '-')
  {
    if |s| > 0 && (s[0] == '+' || s[0] == '-') then
      var body := s[1..];
      if |body| > 0 && AllDigits(body) then
        var magnitude: int := DigitsValue(body);
        Some(if s[0] == '-' then -magnitude else magnitude)
      else
        None
    else if |s| > 0 && AllDigits(s) then
      Some(DigitsValue(s))
    else
      None
  }

  /** What `running` extracts from the file text: `int(text.strip())`. */
  function ParsePid(text: string): Option<int> {
    ParseInt(Strip(text))
  }

  /** The outcome of `open(pid_file)` followed by `f.read()`. */
  datatype FileRead = Unreadable | Text(content: string)

  /**
    `Daemon.running`: the pid recorded in the file when the file can be read,
    its stripped text is an integer, and the liveness probe `os.kill(pid, 0)`
    succeeds for it (`alive` is that probe, as an oracle); absent otherwise.
    Every failure on the way is caught, so the query never raises.
   */
  function Running(file: FileRead, alive: int -> bool): (r: Option<int>)
    ensures r.Some? <==> file.Text? && ParsePid(file.content).Some? && alive(ParsePid(file.content).value)
    ensures r.Some? ==> r == ParsePid(file.content)
  {
    match file
    case Unreadable => None
    case Text(content) =>
      match ParsePid(content)
      case None => None
      case Some(pid) => if alive(pid) then Some(pid) else None
  }

  /** Python truthiness of the value `running` returns: `None` and `0` are false. */
  predicate Truthy(r: Option<int>) {
    r.Some? && r.value != 0
  }

  lemma {:induction false} DigitsRoundTrip(n: nat)
    ensures DigitsValue(NatDigits(n)) == n
    decreases n
  {
    if n >= 10 {
      var r := NatDigits(n);
      assert r[..|r| - 1] == NatDigits(n / 10);
      DigitsRoundTrip(n / 10);
    }
  }

  /** Parsing Python's rendering of any integer gives the integer back. */
  lemma FormatParseRoundTrip(n: int)
    ensures ParseInt(FormatInt(n)) == Some(n)
  {
    if n < 0 {
      ParseNegative(n);
    } else {
      ParseNonNegative(n);
    }
  }

  /** A minus sign followed by digits of value `m` parses to `-m`. */
  lemma ParseMinus(d: string, m: nat)
    requires |d| > 0 && AllDigits(d) && DigitsValue(d) == m
    ensures ParseInt("-" + d) == Some(-(m as int))
  {
    var s := "-" + d;
    assert s[0] == '-' && s[1..] == d;
  }

  lemma ParseNegative(n: int)
    requires n < 0
    ensures ParseInt(FormatInt(n)) == Some(n)
  {
    var d := NatDigits(-n);
    DigitsRoundTrip(-n);
    ParseMinus(d, -n);
    assert FormatInt(n) == "-" + d;
  }

  lemma ParseNonNegative(n: nat)
    ensures ParseInt(FormatInt(n)) == Some(n)
  {
    var r := FormatInt(n);
    assert r == NatDigits(n);
    assert IsDigit(r[0]);
    DigitsRoundTrip(n);
  }

  /** Stripping the written pid file text removes exactly the trailing newline. */
  lemma StripFormatPid(pid: int)
    ensures Strip(FormatPid(pid)) == FormatInt(pid)
  {
    var s := FormatInt(pid);
    var text := FormatPid(pid);
    assert !IsSpace(text[0]);
    var l := StripLeft(text);
    assert l == text;
    var r := StripRight(l);
    assert r == text[..|r|];
    assert text[|s|] == '\n';
    assert |r| == |s|;
    assert r == s;
  }

  /**
    Round trip of the pid file: for every integer pid, `running` parses the
    text `daemonize` writes back to that same pid.
   */
  lemma PidFileRoundTrip(pid: int)
    ensures ParsePid(FormatPid(pid)) == Some(pid)
  {
    StripFormatPid(pid);
    FormatParseRoundTrip(pid);
  }

  /**
    Reading back a freshly written pid file reports that pid exactly when
    the process it names is alive.
   */
  lemma RunningAfterWrite(pid: int, alive: int -> bool)
    ensures Running(Text(FormatPid(pid)), alive) == (if alive(pid) then Some(pid) else None)
  {
    PidFileRoundTrip(pid);
  }

  /** Text without a single digit never names a pid. */
  lemma GarbageIsNotRunning(content: string, alive: int -> bool)
    requires forall k :: 0 <= k < |content| ==> !IsDigit(content[k])
    ensures Running(Text(content), alive) == None
  {
  }
}

=== FILE: requestlog.dfy ===
/**
  `_log_request`: the level at which a finished HTTP request is logged.
  Successful and redirected requests are logged at debug level, except the
  frequent current-picture requests (URIs matching `^/picture/\d+/current`
  at their start), which are not logged at all; client errors are warnings
  and server errors are errors. `\d` is modelled as the ASCII digits.
 */
module RequestLog {
  import opened Common

  const PicturePrefix: string := "/picture/"
  const CurrentSuffix: string := "/current"

  /** The length of the run of ASCII digits at the start of `s`. */
  function LeadingDigits(s: string): (n: nat)
    ensures n <= |s| && AllDigits(s[..n])
    ensures n < |s| ==> !IsDigit(s[n])
  {
    if |s| > 0 && IsDigit(s[0]) then 1 + LeadingDigits(s[1..]) else 0
  }

  /** A run of `n` digits ended by a non-digit is exactly what `LeadingDigits` measures. */
  lemma {:induction false} LeadingDigitsExact(s: string, n: nat)
    requires n < |s| && AllDigits(s[..n]) && !IsDigit(s[n])
    ensures LeadingDigits(s) == n
  {
    if n > 0 {
      assert IsDigit(s[..n][0]);
      assert s[1..][..n - 1] == s[..n][1..];
      LeadingDigitsExact(s[1..], n - 1);
    }
  }

  /**
    `_CURRENT_PICTURE_REGEX.match(uri)`, computed the way the regular
    expression engine does: the prefix, a maximal run of one or more digits,
    then the suffix.
   */
  predicate MatchesCurrentPicture(uri: string) {
    IsPrefix(PicturePrefix, uri) &&
    var rest := uri[|PicturePrefix|..];
    var n := LeadingDigits(rest);
    n >= 1 && IsPrefix(CurrentSuffix, rest[n..])
  }

  /** `uri` starts with the prefix, exactly `n` digits, and the suffix. */
  ghost predicate CurrentPictureWith(uri: string, n: nat) {
    var p := |PicturePrefix|;
    && n >= 1
    && p + n + |CurrentSuffix| <= |uri|
    && uri[..p] == PicturePrefix
    && AllDigits(uri[p..p + n])
    && uri[p + n..p + n + |CurrentSuffix|] == CurrentSuffix
  }

  /** The language of `^/picture/\d+/current` as a prefix: some digit count fits. */
  ghost predicate CurrentPictureUri(uri: string) {
    exists n: nat :: CurrentPictureWith(uri, n)
  }

  /**
    The scan agrees with the regular expression's language: a URI matches
    exactly when some number of digits between prefix and suffix fits, and
    that number is the length of the digit run.
   */
  lemma MatchesCurrentPictureCorrect(uri: string)
    ensures MatchesCurrentPicture(uri) <==> CurrentPictureUri(uri)
  {
    var p := |PicturePrefix|;
    if MatchesCurrentPicture(uri) {
      var rest := uri[p..];
      var n := LeadingDigits(rest);
      assert rest[..n] == uri[p..p + n];
      assert rest[n..][..|CurrentSuffix|] == uri[p + n..p + n + |CurrentSuffix|];
      assert CurrentPictureWith(uri, n);
    }
    if CurrentPictureUri(uri) {
      var n: nat :| CurrentPictureWith(uri, n);
      var rest := uri[p..];
      var m := LeadingDigits(rest);
      assert uri[p + n] == '/';
      assert rest[n] == uri[p + n];
      assert rest[..n] == uri[p..p + n];
      LeadingDigitsExact(rest, n);
      assert rest[n..][..|CurrentSuffix|] == uri[p + n..p + n + |CurrentSuffix|];
    }
  }

  /**
    `_log_request`: `None` when nothing is logged, otherwise the level of the
    log line, stated against the language of the regular expression.
   */
  function RequestLogLevel(status: int, uri: string): (r: Option<Level>)
    ensures r == None <==> status < 400 && CurrentPictureUri(uri)
    ensures r == Some(Debug) <==> status < 400 && !CurrentPictureUri(uri)
    ensures r == Some(Warning) <==> 400 <= status < 500
    ensures r == Some(Error) <==> 500 <= status
  {
    MatchesCurrentPictureCorrect(uri);
    if status < 400 then
      if MatchesCurrentPicture(uri) then None else Some(Debug)
    else if status < 500 then
      Some(Warning)
    else
      Some(Error)
  }

  /** Requests that failed are always logged, whatever their URI. */
  lemma FailuresAlwaysLogged(status: int, uri: string)
    requires status >= 400
    ensures RequestLogLevel(status, uri).Some?
    ensures RequestLogLevel(status, uri).value != Debug
  {
  }

  /**
    `/picture/<digits>/current` followed by anything matches, for instance
    `/picture/7/current/?seq=1`.
   */
  lemma PictureUriMatches(digits: string, tail: string)
    requires |digits| > 0 && AllDigits(digits)
    ensures MatchesCurrentPicture(PicturePrefix + digits + CurrentSuffix + tail)
  {
    var uri := PicturePrefix + digits + CurrentSuffix + tail;
    var rest := uri[|PicturePrefix|..];
    assert uri[..|PicturePrefix|] == PicturePrefix;
    assert rest == digits + CurrentSuffix + tail;
    assert rest[..|digits|] == digits;
    assert rest[|digits|] == '/';
    LeadingDigitsExact(rest, |digits|);
    assert rest[|digits|..][..|CurrentSuffix|] == CurrentSuffix;
  }

  /** Other picture URIs, a URI without digits and other prefixes do not match. */
  lemma OtherUrisDoNotMatch()
    ensures !MatchesCurrentPicture("/picture/12/list")
    ensures !MatchesCurrentPicture("/picture//current")
    ensures !MatchesCurrentPicture("/movie/12/current")
  {
    LeadingDigitsExact("12/list", 2);
    LeadingDigitsExact("/current", 0);
    assert "/movie/12/current"[..|PicturePrefix|] != PicturePrefix by {
      assert "/movie/12/current"[1] == 'm';
    }
  }
}

=== FILE: requirements.dfy ===
/**
  `test_requirements`: the start-up checks of the server. Ten fatal checks
  run in a fixed order and the first that fails logs a fatal message and
  exits with -1; when all pass, missing optional tools are reported at info
  or warning level.

  The environment is an oracle: directory write access (`os.access`), the
  effective user id, whether each Python module imports, and whether each
  external tool is found.
 */
module Requirements {
  import opened Common

  datatype Environment = Environment(
    confWritable: bool,
    runWritable: bool,
    logWritable: bool,
    mediaWritable: bool,
    euid: int,
    hasTornado: bool,
    hasJinja2: bool,
    hasPil: bool,
    hasPycurl: bool,
    hasMotion: bool,
    hasFfmpeg: bool,
    hasV4lUtils: bool,
    hasMountCifs: bool)

  /** The fatal checks of `test_requirements`. */
  datatype Requirement =
    | ConfDir | RunDir | LogDir | MediaDir | RootForSmb
    | Tornado | Jinja2 | Pil | Pycurl | MountCifs

  /** The order in which the fatal checks run. */
  const FatalOrder: seq<Requirement> :=
    [ConfDir, RunDir, LogDir, MediaDir, RootForSmb, Tornado, Jinja2, Pil, Pycurl, MountCifs]

  /** The position of a check in `FatalOrder`. */
  function Rank(q: Requirement): (k: nat)
    ensures k < |FatalOrder| && FatalOrder[k] == q
  {
    match q
    case ConfDir => 0
    case RunDir => 1
    case LogDir => 2
    case MediaDir => 3
    case RootForSmb => 4
    case Tornado => 5
    case Jinja2 => 6
    case Pil => 7
    case Pycurl => 8
    case MountCifs => 9
  }

  /** Whether a check passes: what each `if` of `test_requirements` tests. */
  predicate Satisfied(s: Settings, env: Environment, q: Requirement) {
    match q
    case ConfDir => env.confWritable
    case RunDir => env.runWritable
    case LogDir => env.logWritable
    case MediaDir => env.mediaWritable
    case RootForSmb => env.euid == 0 || !s.smbShares
    case Tornado => env.hasTornado
    case Jinja2 => env.hasJinja2
    case Pil => env.hasPil
    case Pycurl => env.hasPycurl
    case MountCifs => !s.smbShares || env.hasMountCifs
  }

  datatype Note = Note(level: Level, text: string)

  /** The first failed check, or the advisory notes when every check passed. */
  datatype RequirementsResult = Missing(req: Requirement) | Met(notes: seq<Note>)

  const MotionMissing: Note := Note(Info, "motion not installed")
  const FfmpegWithMotion: Note := Note(Warning, "you have motion installed, but no ffmpeg")
  const FfmpegMissing: Note := Note(Info, "ffmpeg not installed")
  const V4lWithMotion: Note := Note(Warning, "you have motion installed, but no v4l-utils")
  const V4lMissing: Note := Note(Info, "v4l-utils not installed")

  /** The position of a note's tool in the order the checks run: motion, ffmpeg, v4l-utils. */
  function ToolRank(n: Note): nat {
    if n == MotionMissing then 0
    else if n == FfmpegWithMotion || n == FfmpegMissing then 1
    else 2
  }

  /**
    The non-fatal tail of `test_requirements`: a missing motion is only
    information; a missing ffmpeg or v4l-utils is a warning when motion is
    installed and information otherwise.
   */
  function Advisories(env: Environment): (notes: seq<Note>)
    ensures MotionMissing in notes <==> !env.hasMotion
    ensures FfmpegWithMotion in notes <==> !env.hasFfmpeg && env.hasMotion
    ensures FfmpegMissing in notes <==> !env.hasFfmpeg && !env.hasMotion
    ensures V4lWithMotion in notes <==> !env.hasV4lUtils && env.hasMotion
    ensures V4lMissing in notes <==> !env.hasV4lUtils && !env.hasMotion
    ensures forall n :: n in notes ==> n.level == Info || n.level == Warning
    ensures |notes| == (if env.hasMotion then 0 else 1) + (if env.hasFfmpeg then 0 else 1)
      + (if env.hasV4lUtils then 0 else 1)
  {
    (if env.hasMotion then [] else [MotionMissing])
    + (if env.hasFfmpeg then [] else if env.hasMotion then [FfmpegWithMotion] else [FfmpegMissing])
    + (if env.hasV4lUtils then [] else if env.hasMotion then [V4lWithMotion] else [V4lMissing])
  }

  /** The notes come in the order of the checks: motion, ffmpeg, v4l-utils. */
  lemma AdvisoriesInCheckOrder(env: Environment)
    ensures forall i, j :: 0 <= i < j < |Advisories(env)| ==>
      ToolRank(Advisories(env)[i]) < ToolRank(Advisories(env)[j])
  {
  }

  /**
    `test_requirements` as its chain of Python `if`s. The result
    names the first check of `FatalOrder` that fails, and only when every
    earlier check passed; `Met` is returned exactly when every check passes.
   */
  function TestRequirements(s: Settings, env: Environment): (r: RequirementsResult)
    ensures r.Missing? ==> !Satisfied(s, env, r.req) && !Satisfied(s, env, FatalOrder[Rank(r.req)])
    ensures r.Missing? ==> forall k :: 0 <= k < Rank(r.req) ==> Satisfied(s, env, FatalOrder[k])
    ensures r.Met? <==> forall k :: 0 <= k < |FatalOrder| ==> Satisfied(s, env, FatalOrder[k])
    ensures r.Met? ==> r.notes == Advisories(env)
  {
    if !env.confWritable then Missing(ConfDir)
    else if !env.runWritable then Missing(RunDir)
    else if !env.logWritable then Missing(LogDir)
    else if !env.mediaWritable then Missing(MediaDir)
    else if env.euid != 0 && s.smbShares then Missing(RootForSmb)
    else if !env.hasTornado then Missing(Tornado)
    else if !env.hasJinja2 then Missing(Jinja2)
    else if !env.hasPil then Missing(Pil)
    else if !env.hasPycurl then Missing(Pycurl)
    else if s.smbShares && !env.hasMountCifs then Missing(MountCifs)
    else Met(Advisories(env))
  }

  /** The fatal log line of a failed check. */
  function FatalMessage(s: Settings, q: Requirement): string {
    match q
    case ConfDir => "config directory \"" + s.confPath + "\" does not exist or is not writable"
    case RunDir => "pid directory \"" + s.runPath + "\" does not exist or is not writable"
    case LogDir => "log directory \"" + s.logPath + "\" does not exist or is not writable"
    case MediaDir => "media directory \"" + s.mediaPath + "\" does not exist or is not writable"
    case RootForSmb => "SMB actions require root privileges"
    case Tornado => "please install tornado version 3.1 or greater"
    case Jinja2 => "please install jinja2"
    case Pil => "please install pillow or PIL"
    case Pycurl => "please install pycurl"
    case MountCifs => "please install cifs-utils"
  }

  function NotesLog(notes: seq<Note>): (t: seq<Action>)
    ensures |t| == |notes|
    ensures forall k :: 0 <= k < |t| ==> t[k] == Log(notes[k].level, notes[k].text)
  {
    if |notes| == 0 then [] else [Log(notes[0].level, notes[0].text)] + NotesLog(notes[1..])
  }

  /** The actions of `test_requirements`: a fatal line and exit -1, or the advisory lines. */
  function RequirementsTrace(s: Settings, env: Environment): (t: seq<Action>)
    ensures ExitOnlyLast(t)
    ensures TestRequirements(s, env).Missing? <==> |t| > 0 && t[|t| - 1] == Exit(-1)
    ensures forall a :: a in t && a.Log? ==> (a.level == Fatal <==> TestRequirements(s, env).Missing?)
    ensures TestRequirements(s, env).Missing? ==>
      Log(Fatal, FatalMessage(s, TestRequirements(s, env).req)) in t
    ensures TestRequirements(s, env).Met? ==> |t| == |TestRequirements(s, env).notes|
    ensures TestRequirements(s, env).Met? ==> forall k :: 0 <= k < |t| ==>
      t[k] == Log(TestRequirements(s, env).notes[k].level, TestRequirements(s, env).notes[k].text)
    ensures TestRequirements(s, env).Met? ==> forall a :: a in t ==> a.Log? && (a.level == Info || a.level == Warning)
  {
    match TestRequirements(s, env)
    case Missing(q) => [Log(Fatal, FatalMessage(s, q)), Exit(-1)]
    case Met(notes) =>
      NotesLogLevels(notes);
      NotesLog(notes)
  }

  /** Advisory notes become advisory log lines: no exit, no fatal line. */
  lemma NotesLogLevels(notes: seq<Note>)
    requires forall n :: n in notes ==> n.level == Info || n.level == Warning
    ensures forall a :: a in NotesLog(notes) ==> a.Log? && (a.level == Info || a.level == Warning)
    ensures forall c :: !(Exit(c) in NotesLog(notes))
  {
    var t := NotesLog(notes);
    forall a | a in t
      ensures a.Log? && (a.level == Info || a.level == Warning)
    {
      var k :| 0 <= k < |t| && t[k] == a;
      assert notes[k] in notes;
    }
  }

  /**
    A failed directory check stops the chain before any import or tool
    check, whatever the rest of the environment says.
   */
  lemma UnwritableConfigDirWins(s: Settings, env: Environment)
    requires !env.confWritable
    ensures TestRequirements(s, env) == Missing(ConfDir)
  {
  }

  /** SMB shares need both root and mount.cifs; without shares neither matters. */
  lemma SmbRequirements(s: Settings, env: Environment)
    requires forall k :: 0 <= k < Rank(RootForSmb) ==> Satisfied(s, env, FatalOrder[k])
    requires env.hasTornado && env.hasJinja2 && env.hasPil && env.hasPycurl
    ensures !s.smbShares ==> TestRequirements(s, env).Met?
    ensures s.smbShares && env.euid != 0 ==> TestRequirements(s, env) == Missing(RootForSmb)
    ensures s.smbShares && env.euid == 0 ==>
      (TestRequirements(s, env).Met? <==> env.hasMountCifs)
  {
    assert Satisfied(s, env, FatalOrder[0]) && Satisfied(s, env, FatalOrder[1]);
    assert Satisfied(s, env, FatalOrder[2]) && Satisfied(s, env, FatalOrder[3]);
  }
}

=== FILE: server.dfy ===
/**
  `run`: the server's start-up and shut-down sequence. After the
  requirement checks and the media folders, motion is started (through
  `start_motion`, which also arms the health check) unless SMB shares are
  configured and the mount update asks not to; the cleanup sweep, the
  websocket switch, the task scheduler, the MJPEG client collector and the
  SMB mount loop start as configured; then the HTTP server listens and the
  I/O loop runs until a stop signal. Afterwards the task scheduler, the
  cleanup sweep (if running), motion (if running) and the SMB mounts (if
  configured) are stopped, in that order.

  The collaborators are oracles: the environment of the checks, the
  cameras, the second result of `smbctl.update_mounts()`, a failure of
  `motionctl.start()`, and whether cleanup and motion still run at the end.
 */
module Server {
  import opened Common
  import Requirements
  import MediaFolders
  import MotionSupervisor

  datatype RunOracle = RunOracle(
    env: Requirements.Environment,
    cameras: seq<MediaFolders.CameraFolder>,
    mountsStart: bool,
    motionStartError: Option<string>,
    cleanupRunning: bool,
    motionRunning: bool)

  /** The motion step: `start_motion()` directly, or after the mount update when SMB shares exist. */
  function MotionStartup(s: Settings, o: RunOracle): seq<Action> {
    if s.smbShares then
      [UpdateMounts] + if o.mountsStart then MotionSupervisor.StartMotion(o.motionStartError) else []
    else
      MotionSupervisor.StartMotion(o.motionStartError)
  }

  /** `[StartSubsystem(x)]` when the guard holds, nothing otherwise. */
  function Gate(on: bool, x: Subsystem): seq<Action> {
    if on then [StartSubsystem(x)] else []
  }

  /** The configuration-gated subsystem starts after the motion step. */
  function SubsystemStartup(s: Settings): seq<Action> {
    Gate(s.cleanupInterval != 0, Cleanup)
    + [StartSubsystem(WsSwitch), StartSubsystem(Tasks)]
    + Gate(s.mjpgClientTimeout != 0, MjpgClient)
    + Gate(s.smbShares, Smb)
  }

  /** The steps after the I/O loop returns. */
  function Shutdown(s: Settings, o: RunOracle): seq<Action> {
    [StopSubsystem(Tasks)]
    + (if o.cleanupRunning then [StopSubsystem(Cleanup)] else [])
    + (if o.motionRunning then [StopSubsystem(Motion)] else [])
    + (if s.smbShares then [StopSubsystem(Smb)] else [])
  }

  /** Everything `run` does after the checks and before `listen`. */
  function Startup(s: Settings, o: RunOracle): seq<Action> {
    MediaFolders.MediaFolders(o.cameras) + MotionStartup(s, o) + SubsystemStartup(s)
  }

  /** `run`, from the requirement checks to the last shut-down step. */
  function Run(s: Settings, o: RunOracle): seq<Action> {
    var checks := Requirements.RequirementsTrace(s, o.env);
    if Requirements.TestRequirements(s, o.env).Missing? then checks
    else checks + Startup(s, o) + [Listen, ServeUntilStopped] + Shutdown(s, o)
  }

  /** Where `listen` sits in a run whose checks passed. */
  function ListenIndex(s: Settings, o: RunOracle): nat {
    |Requirements.RequirementsTrace(s, o.env) + Startup(s, o)|
  }

  /** Whether `run` starts subsystem `x`, as a table over the configuration. */
  predicate StartedBy(s: Settings, mountsStart: bool, x: Subsystem) {
    match x
    case Motion => !s.smbShares || mountsStart
    case Cleanup => s.cleanupInterval != 0
    case WsSwitch => true
    case Tasks => true
    case MjpgClient => s.mjpgClientTimeout != 0
    case Smb => s.smbShares
  }

  /** Whether `run` stops subsystem `x` after the I/O loop. */
  predicate StoppedBy(s: Settings, o: RunOracle, x: Subsystem) {
    match x
    case Tasks => true
    case Cleanup => o.cleanupRunning
    case Motion => o.motionRunning
    case Smb => s.smbShares
    case WsSwitch => false
    case MjpgClient => false
  }

  /** The position of a subsystem in the shut-down order. */
  function StopRank(x: Subsystem): nat {
    match x
    case Tasks => 0
    case Cleanup => 1
    case Motion => 2
    case Smb => 3
    case WsSwitch => 4
    case MjpgClient => 5
  }

  /** The position of a subsystem in the start-up order. */
  function StartRank(x: Subsystem): nat {
    match x
    case Motion => 0
    case Cleanup => 1
    case WsSwitch => 2
    case Tasks => 3
    case MjpgClient => 4
    case Smb => 5
  }

  /** The steps whose order start-up fixes: folder creation, the mount update and the starts. */
  predicate IsSetup(a: Action) {
    a.MakeDirs? || a == UpdateMounts || a.StartSubsystem?
  }

  /** The position of a set-up step: folders, then the mount update, then the starts by `StartRank`. */
  function SetupRank(a: Action): nat {
    if a.MakeDirs? then 0
    else if a == UpdateMounts then 1
    else if a.StartSubsystem? then 2 + StartRank(a.subsystem)
    else 0
  }

  /** Set-up step `x` may come before set-up step `y`: only folder creations share a rank. */
  predicate SetupBefore(x: Action, y: Action) {
    IsSetup(x) && IsSetup(y) ==> SetupRank(x) < SetupRank(y) || (x.MakeDirs? && y.MakeDirs?)
  }

  /** Any two set-up steps in `t` come in start-up order. */
  predicate SetupOrdered(t: seq<Action>) {
    forall i, j :: 0 <= i < j < |t| ==> SetupBefore(t[i], t[j])
  }

  /** Any two starts in `t` come in ascending `StartRank`. */
  predicate StartsOrdered(t: seq<Action>) {
    forall i, j :: 0 <= i < j < |t| && t[i].StartSubsystem? && t[j].StartSubsystem? ==>
      StartRank(t[i].subsystem) < StartRank(t[j].subsystem)
  }

  /** A failed requirement check ends `run`: nothing is started, nothing listens. */
  lemma RunFatal(s: Settings, o: RunOracle)
    requires Requirements.TestRequirements(s, o.env).Missing?
    ensures var t := Run(s, o);
      && |t| > 0 && t[|t| - 1] == Exit(-1)
      && !(Listen in t)
      && forall a :: a in t ==> !a.StartSubsystem? && !a.MakeDirs? && !a.StopSubsystem?
  {
  }

  /** When every check passes, `test_requirements` only logs. */
  lemma PassedChecksOnlyLog(s: Settings, env: Requirements.Environment)
    requires Requirements.TestRequirements(s, env).Met?
    ensures forall a :: a in Requirements.RequirementsTrace(s, env) ==> a.Log?
  {
    var t := Requirements.RequirementsTrace(s, env);
    forall a | a in t
      ensures a.Log?
    {
      var k :| 0 <= k < |t| && t[k] == a;
    }
  }

  /** The media-folder phase only creates folders and logs. */
  lemma MediaOnlyFolders(cams: seq<MediaFolders.CameraFolder>)
    ensures forall a :: a in MediaFolders.MediaFolders(cams) ==> a.MakeDirs? || a.Log?
  {
    MediaFolders.MediaFoldersAttempts(cams);
  }

  /** The motion step starts motion at most once, and arms the check exactly when it does. */
  lemma MotionStartupContents(s: Settings, o: RunOracle)
    ensures Count(MotionStartup(s, o), StartSubsystem(Motion)) == if StartedBy(s, o.mountsStart, Motion) then 1 else 0
    ensures ScheduleChecker in MotionStartup(s, o) <==> StartedBy(s, o.mountsStart, Motion)
    ensures forall a :: a in MotionStartup(s, o) ==>
      a == UpdateMounts || a == StartSubsystem(Motion) || a == ScheduleChecker || a.Log?
  {
    var m := MotionSupervisor.StartMotion(o.motionStartError);
    CountPositive(m, ScheduleChecker);
    if s.smbShares {
      var tail := if o.mountsStart then m else [];
      CountAppend([UpdateMounts], tail, StartSubsystem(Motion));
    }
  }

  lemma GateCount(on: bool, x: Subsystem, a: Action)
    ensures Count(Gate(on, x), a) == if on && a == StartSubsystem(x) then 1 else 0
  {
  }

  /** The gated starts: every subsystem but motion, each once exactly when its setting asks. */
  lemma GatedStartCount(s: Settings, mountsStart: bool, x: Subsystem)
    ensures Count(SubsystemStartup(s), StartSubsystem(x)) == if x != Motion && StartedBy(s, mountsStart, x) then 1 else 0
  {
    var a := StartSubsystem(x);
    var g1 := Gate(s.cleanupInterval != 0, Cleanup);
    var g2 := [StartSubsystem(WsSwitch), StartSubsystem(Tasks)];
    var g3 := Gate(s.mjpgClientTimeout != 0, MjpgClient);
    var g4 := Gate(s.smbShares, Smb);
    GateCount(s.cleanupInterval != 0, Cleanup, a);
    GateCount(s.mjpgClientTimeout != 0, MjpgClient, a);
    GateCount(s.smbShares, Smb, a);
    CountJoin(g1, g2, g3, g4, a);
  }

  /** The gated phase only starts subsystems. */
  lemma GatedOnlyStarts(s: Settings)
    ensures forall a :: a in SubsystemStartup(s) ==> a.StartSubsystem?
  {
  }

  /** The shut-down steps are stops only, each subsystem at most once, in ascending `StopRank`. */
  lemma ShutdownOrdered(s: Settings, o: RunOracle)
    ensures forall a :: a in Shutdown(s, o) ==> a.StopSubsystem?
    ensures forall x :: StopSubsystem(x) in Shutdown(s, o) <==> StoppedBy(s, o, x)
    ensures forall i, j :: 0 <= i < j < |Shutdown(s, o)| ==>
      StopRank(Shutdown(s, o)[i].subsystem) < StopRank(Shutdown(s, o)[j].subsystem)
  {
  }

  /** The steps before `listen` neither stop, listen, serve nor exit. */
  lemma StartupActions(s: Settings, o: RunOracle)
    ensures forall a :: a in Startup(s, o) ==>
      !a.StopSubsystem? && a != Listen && a != ServeUntilStopped && !a.Exit?
  {
    var media := MediaFolders.MediaFolders(o.cameras);
    var motion := MotionStartup(s, o);
    var subs := SubsystemStartup(s);
    MediaOnlyFolders(o.cameras);
    MotionStartupContents(s, o);
    GatedOnlyStarts(s);
    assert Startup(s, o) == media + motion + subs;
    forall a: Action | a in media + motion + subs
      ensures !a.StopSubsystem? && a != Listen && a != ServeUntilStopped && !a.Exit?
    {
      if a in media {
      } else if a in motion {
      } else {
        assert a in subs;
      }
    }
  }

  /** `run` after passed checks, split into its four phases. */
  lemma RunLayout(s: Settings, o: RunOracle)
    requires Requirements.TestRequirements(s, o.env).Met?
    ensures Run(s, o) == Requirements.RequirementsTrace(s, o.env) + Startup(s, o)
      + [Listen, ServeUntilStopped] + Shutdown(s, o)
  {
  }

  lemma CountJoin(w: seq<Action>, x: seq<Action>, y: seq<Action>, z: seq<Action>, a: Action)
    ensures Count(w + x + y + z, a) == Count(w, a) + Count(x, a) + Count(y, a) + Count(z, a)
  {
    CountAppend(w, x, a);
    CountAppend(w + x, y, a);
    CountAppend(w + x + y, z, a);
  }

  /** The phases other than start-up start nothing. */
  lemma NoStartsOutsideStartup(s: Settings, o: RunOracle, x: Subsystem)
    requires Requirements.TestRequirements(s, o.env).Met?
    ensures Count(Requirements.RequirementsTrace(s, o.env), StartSubsystem(x)) == 0
    ensures Count([Listen, ServeUntilStopped], StartSubsystem(x)) == 0
    ensures Count(Shutdown(s, o), StartSubsystem(x)) == 0
  {
    PassedChecksOnlyLog(s, o.env);
    ShutdownOrdered(s, o);
    CountPositive(Requirements.RequirementsTrace(s, o.env), StartSubsystem(x));
    CountPositive(Shutdown(s, o), StartSubsystem(x));
  }

  lemma MotionStepStartCount(s: Settings, o: RunOracle, x: Subsystem)
    ensures Count(MotionStartup(s, o), StartSubsystem(x)) == if x == Motion && StartedBy(s, o.mountsStart, x) then 1 else 0
  {
    MotionStartupContents(s, o);
    if x != Motion {
      CountPositive(MotionStartup(s, o), StartSubsystem(x));
    }
  }

  lemma MediaStartCount(cams: seq<MediaFolders.CameraFolder>, x: Subsystem)
    ensures Count(MediaFolders.MediaFolders(cams), StartSubsystem(x)) == 0
  {
    MediaOnlyFolders(cams);
    CountPositive(MediaFolders.MediaFolders(cams), StartSubsystem(x));
  }

  /** Start-up starts each subsystem once when its configuration asks for it. */
  lemma StartupStartCount(s: Settings, o: RunOracle, x: Subsystem)
    ensures Count(Startup(s, o), StartSubsystem(x)) == if StartedBy(s, o.mountsStart, x) then 1 else 0
  {
    MediaStartCount(o.cameras, x);
    MotionStepStartCount(s, o, x);
    GatedStartCount(s, o.mountsStart, x);
    var media := MediaFolders.MediaFolders(o.cameras);
    CountJoin([], media, MotionStartup(s, o), SubsystemStartup(s), StartSubsystem(x));
    assert [] + media == media;
  }

  /** The number of starts of one subsystem over a run whose checks passed. */
  lemma RunStartCount(s: Settings, o: RunOracle, x: Subsystem)
    requires Requirements.TestRequirements(s, o.env).Met?
    ensures Count(Run(s, o), StartSubsystem(x)) == if StartedBy(s, o.mountsStart, x) then 1 else 0
  {
    RunLayout(s, o);
    NoStartsOutsideStartup(s, o, x);
    StartupStartCount(s, o, x);
    CountJoin(Requirements.RequirementsTrace(s, o.env), Startup(s, o), [Listen, ServeUntilStopped],
      Shutdown(s, o), StartSubsystem(x));
  }

  /** The health check is armed during start-up exactly when motion is started. */
  lemma StartupArmsChecker(s: Settings, o: RunOracle)
    ensures ScheduleChecker in Startup(s, o) <==> StartedBy(s, o.mountsStart, Motion)
  {
    MediaOnlyFolders(o.cameras);
    MotionStartupContents(s, o);
    GatedOnlyStarts(s);
    var media := MediaFolders.MediaFolders(o.cameras);
    assert Startup(s, o) == media + MotionStartup(s, o) + SubsystemStartup(s);
  }

  /** Each subsystem is started exactly once when its configuration asks for it, and never otherwise. */
  lemma RunStarts(s: Settings, o: RunOracle)
    requires Requirements.TestRequirements(s, o.env).Met?
    ensures forall x :: Count(Run(s, o), StartSubsystem(x)) == if StartedBy(s, o.mountsStart, x) then 1 else 0
  {
    forall x
      ensures Count(Run(s, o), StartSubsystem(x)) == if StartedBy(s, o.mountsStart, x) then 1 else 0
    {
      RunStartCount(s, o, x);
    }
  }

  /**
    The motion health check is armed exactly when motion is started: it is
    part of `start_motion`, so a mount update that vetoes the start also
    leaves the check unarmed.
   */
  lemma RunArmsChecker(s: Settings, o: RunOracle)
    requires Requirements.TestRequirements(s, o.env).Met?
    ensures ScheduleChecker in Run(s, o) <==> StartedBy(s, o.mountsStart, Motion)
    ensures ScheduleChecker in Run(s, o) <==> StartSubsystem(Motion) in Run(s, o)
  {
    StartupArmsChecker(s, o);
    RunCheckerPhase(s, o);
    RunStartCount(s, o, Motion);
    CountPositive(Run(s, o), StartSubsystem(Motion));
  }

  /** A step that is neither a log line, a stop nor part of serving occurs in a run exactly when it occurs in start-up. */
  lemma OnlyInStartup(checks: seq<Action>, mid: seq<Action>, down: seq<Action>, a: Action)
    requires forall b :: b in checks ==> b.Log?
    requires forall b :: b in down ==> b.StopSubsystem?
    requires !a.Log? && !a.StopSubsystem? && a != Listen && a != ServeUntilStopped
    ensures a in checks + mid + [Listen, ServeUntilStopped] + down <==> a in mid
  {
  }

  lemma RunCheckerPhase(s: Settings, o: RunOracle)
    requires Requirements.TestRequirements(s, o.env).Met?
    ensures ScheduleChecker in Run(s, o) <==> ScheduleChecker in Startup(s, o)
  {
    RunLayout(s, o);
    PassedChecksOnlyLog(s, o.env);
    ShutdownOrdered(s, o);
    OnlyInStartup(Requirements.RequirementsTrace(s, o.env), Startup(s, o), Shutdown(s, o), ScheduleChecker);
  }

  /** The steps that may come before `listen`. */
  predicate BeforeListen(a: Action) {
    !a.StopSubsystem? && a != Listen && a != ServeUntilStopped && !a.Exit?
  }

  /**
    `listen` sits at `l`, directly followed by the I/O loop; every earlier
    step is a start-up step and every later step is a stop, of which there
    is at least one.
   */
  predicate ListenOrdered(t: seq<Action>, l: nat) {
    && l + 2 < |t| && t[l] == Listen && t[l + 1] == ServeUntilStopped
    && (forall i :: 0 <= i < l ==> BeforeListen(t[i]))
    && (forall i :: l + 1 < i < |t| ==> t[i].StopSubsystem?)
  }

  /** Any two stops in `t` come in ascending `StopRank`. */
  predicate StopsOrdered(t: seq<Action>) {
    forall i, j :: 0 <= i < j < |t| && t[i].StopSubsystem? && t[j].StopSubsystem? ==>
      StopRank(t[i].subsystem) < StopRank(t[j].subsystem)
  }

  /** The positions in a trace of the shape start-up, `listen`, I/O loop, shut-down. */
  lemma ListenLayout(pre: seq<Action>, down: seq<Action>)
    requires forall a :: a in pre ==> BeforeListen(a)
    requires |down| > 0 && forall a :: a in down ==> a.StopSubsystem?
    requires StopsOrdered(down)
    ensures ListenOrdered(pre + [Listen, ServeUntilStopped] + down, |pre|)
    ensures StopsOrdered(pre + [Listen, ServeUntilStopped] + down)
  {
    var t := pre + [Listen, ServeUntilStopped] + down;
    var n := |pre| + 2;
    forall i | 0 <= i < |pre|
      ensures BeforeListen(t[i])
    {
      assert t[i] == pre[i];
    }
    forall i | n <= i < |t|
      ensures t[i] == down[i - n]
    {
    }
    forall i, j | 0 <= i < j < |t| && t[i].StopSubsystem? && t[j].StopSubsystem?
      ensures StopRank(t[i].subsystem) < StopRank(t[j].subsystem)
    {
      assert t[i] == down[i - n] && t[j] == down[j - n];
    }
  }

  /** The phases of a run whose checks passed, in the shape `ListenLayout` expects. */
  lemma RunPhases(s: Settings, o: RunOracle)
    requires Requirements.TestRequirements(s, o.env).Met?
    ensures forall a :: a in Requirements.RequirementsTrace(s, o.env) + Startup(s, o) ==> BeforeListen(a)
    ensures |Shutdown(s, o)| > 0 && forall a :: a in Shutdown(s, o) ==> a.StopSubsystem?
    ensures StopsOrdered(Shutdown(s, o))
  {
    PassedChecksOnlyLog(s, o.env);
    StartupActions(s, o);
    ShutdownOrdered(s, o);
  }

  /**
    `listen` happens once, directly followed by the I/O loop; every check,
    folder creation, mount update, start and check arming comes before it
    and only stops come after it.
   */
  lemma RunListenOrder(s: Settings, o: RunOracle)
    requires Requirements.TestRequirements(s, o.env).Met?
    ensures ListenOrdered(Run(s, o), ListenIndex(s, o))
  {
    RunLayout(s, o);
    RunPhases(s, o);
    ListenLayout(Requirements.RequirementsTrace(s, o.env) + Startup(s, o), Shutdown(s, o));
  }

  /**
    The stops happen exactly for the subsystems the shut-down code checks:
    the task scheduler always, cleanup and motion when they still run, the
    SMB mounts when configured; the websocket switch and the MJPEG client
    collector are never stopped.
   */
  lemma RunStops(s: Settings, o: RunOracle)
    requires Requirements.TestRequirements(s, o.env).Met?
    ensures forall x :: StopSubsystem(x) in Run(s, o) <==> StoppedBy(s, o, x)
    ensures !(StopSubsystem(WsSwitch) in Run(s, o)) && !(StopSubsystem(MjpgClient) in Run(s, o))
  {
    RunLayout(s, o);
    RunPhases(s, o);
    ShutdownOrdered(s, o);
    forall x
      ensures StopSubsystem(x) in Run(s, o) <==> StopSubsystem(x) in Shutdown(s, o)
    {
      StopsOnlyInShutdown(Requirements.RequirementsTrace(s, o.env) + Startup(s, o), Shutdown(s, o), x);
    }
  }

  /** In a trace laid out around `listen`, the stops are those of the shut-down part. */
  lemma StopsOnlyInShutdown(pre: seq<Action>, down: seq<Action>, x: Subsystem)
    requires forall a :: a in pre ==> BeforeListen(a)
    ensures StopSubsystem(x) in pre + [Listen, ServeUntilStopped] + down <==> StopSubsystem(x) in down
  {
  }

  /** The stops come in the order tasks, cleanup, motion, SMB mounts. */
  lemma RunStopOrder(s: Settings, o: RunOracle)
    requires Requirements.TestRequirements(s, o.env).Met?
    ensures StopsOrdered(Run(s, o))
  {
    RunLayout(s, o);
    RunPhases(s, o);
    ListenLayout(Requirements.RequirementsTrace(s, o.env) + Startup(s, o), Shutdown(s, o));
  }

  /** A trace laid out around `listen` contains no exit and ends with a stop. */
  lemma OrderedRunHasNoExit(t: seq<Action>, l: nat)
    requires ListenOrdered(t, l)
    ensures forall c :: !(Exit(c) in t)
    ensures t[|t| - 1].StopSubsystem?
  {
    forall c
      ensures !(Exit(c) in t)
    {
      forall i | 0 <= i < |t|
        ensures t[i] != Exit(c)
      {
        if i < l {
          assert BeforeListen(t[i]);
        }
      }
    }
  }

  /** A run whose checks passed never exits on its own: it ends with the last shut-down step. */
  lemma RunWithoutExit(s: Settings, o: RunOracle)
    requires Requirements.TestRequirements(s, o.env).Met?
    ensures forall c :: !(Exit(c) in Run(s, o))
    ensures Run(s, o)[|Run(s, o)| - 1].StopSubsystem?
  {
    RunListenOrder(s, o);
    OrderedRunHasNoExit(Run(s, o), ListenIndex(s, o));
  }

  /** Joining two traces keeps the start-up order when every step of the first may precede every step of the second. */
  lemma SetupJoin(a: seq<Action>, b: seq<Action>)
    requires SetupOrdered(a) && SetupOrdered(b)
    requires forall x, y :: x in a && y in b ==> SetupBefore(x, y)
    ensures SetupOrdered(a + b)
  {
    var t := a + b;
    forall i, j | 0 <= i < j < |t|
      ensures SetupBefore(t[i], t[j])
    {
      if j < |a| {
        assert t[i] == a[i] && t[j] == a[j];
      } else if i < |a| {
        assert t[i] == a[i] && t[j] == b[j - |a|];
      } else {
        assert t[i] == b[i - |a|] && t[j] == b[j - |a|];
      }
    }
  }

  /** A trace without set-up steps is trivially in start-up order. */
  lemma NoSetupOrdered(t: seq<Action>)
    requires forall a :: a in t ==> !IsSetup(a)
    ensures SetupOrdered(t)
  {
    forall i, j | 0 <= i < j < |t|
      ensures SetupBefore(t[i], t[j])
    {
      assert t[i] in t;
    }
  }

  /** The requirement checks neither create folders, update mounts nor start anything. */
  lemma ChecksHaveNoSetup(s: Settings, env: Requirements.Environment)
    ensures forall a :: a in Requirements.RequirementsTrace(s, env) ==> !IsSetup(a)
  {
    if Requirements.TestRequirements(s, env).Met? {
      PassedChecksOnlyLog(s, env);
    }
  }

  /** `start_motion` starts motion before anything else it does. */
  lemma StartMotionOrdered(e: Option<string>)
    ensures SetupOrdered(MotionSupervisor.StartMotion(e))
  {
    var t := MotionSupervisor.StartMotion(e);
    forall i, j | 0 <= i < j < |t|
      ensures SetupBefore(t[i], t[j])
    {
      assert t[j].Log? || t[j] == ScheduleChecker;
    }
  }

  /** The motion step: the mount update, if any, before the start of motion. */
  lemma MotionSetupOrdered(s: Settings, o: RunOracle)
    ensures SetupOrdered(MotionStartup(s, o))
    ensures forall a :: a in MotionStartup(s, o) && IsSetup(a) ==> a == UpdateMounts || a == StartSubsystem(Motion)
  {
    MotionStartupContents(s, o);
    var m := MotionSupervisor.StartMotion(o.motionStartError);
    StartMotionOrdered(o.motionStartError);
    if s.smbShares {
      var tail := if o.mountsStart then m else [];
      assert forall a :: a in tail ==> a == StartSubsystem(Motion) || a == ScheduleChecker || a.Log?;
      SetupJoin([UpdateMounts], tail);
    }
  }

  /**
    Appending the gate of subsystem `x` to a run of starts ranked from
    `lo` and below `x` keeps the start-up order.
   */
  lemma GateJoin(t: seq<Action>, on: bool, x: Subsystem, lo: nat)
    requires SetupOrdered(t) && lo <= StartRank(x)
    requires forall a :: a in t ==> a.StartSubsystem? && lo <= StartRank(a.subsystem) < StartRank(x)
    ensures SetupOrdered(t + Gate(on, x))
    ensures forall a :: a in t + Gate(on, x) ==> a.StartSubsystem? && lo <= StartRank(a.subsystem) <= StartRank(x)
  {
    var g := Gate(on, x);
    forall a, b | a in t && b in g
      ensures SetupBefore(a, b)
    {
      assert b == StartSubsystem(x);
    }
    NoSetupOrdered([]);
    assert SetupOrdered(g);
    SetupJoin(t, g);
  }

  /** The gated phase starts cleanup, the websocket switch, the tasks, the MJPEG collector and SMB, in that order. */
  lemma SubsystemSetupOrdered(s: Settings)
    ensures SetupOrdered(SubsystemStartup(s))
    ensures forall a :: a in SubsystemStartup(s) ==> a.StartSubsystem? && a.subsystem != Motion
  {
    var g1 := Gate(s.cleanupInterval != 0, Cleanup);
    var g2 := g1 + Gate(true, WsSwitch);
    var g3 := g2 + Gate(true, Tasks);
    var g4 := g3 + Gate(s.mjpgClientTimeout != 0, MjpgClient);
    NoSetupOrdered([]);
    GateJoin([], s.cleanupInterval != 0, Cleanup, 1);
    assert [] + g1 == g1;
    GateJoin(g1, true, WsSwitch, 1);
    GateJoin(g2, true, Tasks, 1);
    GateJoin(g3, s.mjpgClientTimeout != 0, MjpgClient, 1);
    GateJoin(g4, s.smbShares, Smb, 1);
    assert Gate(true, WsSwitch) + Gate(true, Tasks) == [StartSubsystem(WsSwitch), StartSubsystem(Tasks)];
    assert g3 == g1 + [StartSubsystem(WsSwitch), StartSubsystem(Tasks)];
  }

  /** Folders, then the motion step, then the gated starts: the order holds across the three. */
  lemma PhasesSetupOrdered(media: seq<Action>, motion: seq<Action>, subs: seq<Action>)
    requires forall a :: a in media ==> !IsSetup(a) || a.MakeDirs?
    requires SetupOrdered(motion)
    requires forall a :: a in motion && IsSetup(a) ==> a == UpdateMounts || a == StartSubsystem(Motion)
    requires SetupOrdered(subs)
    requires forall a :: a in subs ==> a.StartSubsystem? && a.subsystem != Motion
    ensures SetupOrdered(media + motion + subs)
  {
    forall i, j | 0 <= i < j < |media|
      ensures SetupBefore(media[i], media[j])
    {
      assert media[i] in media && media[j] in media;
    }
    forall x, y | x in media && y in motion
      ensures SetupBefore(x, y)
    {
    }
    SetupJoin(media, motion);
    forall x, y | x in media + motion && y in subs
      ensures SetupBefore(x, y)
    {
      if IsSetup(x) && IsSetup(y) {
        assert x in media || x in motion;
        assert x.MakeDirs? || x == UpdateMounts || x == StartSubsystem(Motion);
        assert SetupRank(x) <= 2 < SetupRank(y);
      }
    }
    SetupJoin(media + motion, subs);
  }

  /** Start-up: all folders, then the mount update, then the starts in `StartRank` order. */
  lemma StartupSetupOrdered(s: Settings, o: RunOracle)
    ensures SetupOrdered(Startup(s, o))
  {
    MediaOnlyFolders(o.cameras);
    MotionSetupOrdered(s, o);
    SubsystemSetupOrdered(s);
    PhasesSetupOrdered(MediaFolders.MediaFolders(o.cameras), MotionStartup(s, o), SubsystemStartup(s));
  }

  /** Phases without set-up steps around an ordered middle leave the order intact. */
  lemma FramedSetupOrdered(pre: seq<Action>, mid: seq<Action>, down: seq<Action>)
    requires forall a :: a in pre ==> !IsSetup(a)
    requires SetupOrdered(mid)
    requires forall a :: a in down ==> a.StopSubsystem?
    ensures SetupOrdered(pre + mid + [Listen, ServeUntilStopped] + down)
  {
    var serve := [Listen, ServeUntilStopped];
    NoSetupOrdered(pre);
    NoSetupOrdered(serve);
    NoSetupOrdered(down);
    SetupJoin(pre, mid);
    SetupJoin(pre + mid, serve);
    SetupJoin(pre + mid + serve, down);
  }

  /** After passed checks the phases around start-up hold no set-up step. */
  lemma PassedRunSetupOrdered(s: Settings, o: RunOracle)
    requires Requirements.TestRequirements(s, o.env).Met?
    ensures SetupOrdered(Run(s, o))
  {
    RunLayout(s, o);
    ChecksHaveNoSetup(s, o.env);
    ShutdownOrdered(s, o);
    StartupSetupOrdered(s, o);
    FramedSetupOrdered(Requirements.RequirementsTrace(s, o.env), Startup(s, o), Shutdown(s, o));
  }

  /** The whole of `run` keeps the start-up order: no other phase has a set-up step. */
  lemma RunSetupOrdered(s: Settings, o: RunOracle)
    ensures SetupOrdered(Run(s, o))
  {
    if Requirements.TestRequirements(s, o.env).Met? {
      PassedRunSetupOrdered(s, o);
    } else {
      ChecksHaveNoSetup(s, o.env);
      NoSetupOrdered(Requirements.RequirementsTrace(s, o.env));
    }
  }

  /**
    What the start-up order means for single steps: starts come in
    ascending `StartRank`, every folder is created before the mount update
    and before any start, and the mount update comes before any start.
   */
  lemma SetupOrderedSteps(t: seq<Action>)
    requires SetupOrdered(t)
    ensures StartsOrdered(t)
    ensures forall i, j :: 0 <= i < |t| && 0 <= j < |t| && t[i].MakeDirs? && (t[j] == UpdateMounts || t[j].StartSubsystem?) ==> i < j
    ensures forall i, j :: 0 <= i < |t| && 0 <= j < |t| && t[i] == UpdateMounts && t[j].StartSubsystem? ==> i < j
  {
  }

  /**
    `run` creates every media folder before `update_mounts`, updates the
    mounts before it starts motion, and starts the subsystems in the order
    motion, cleanup, websocket switch, tasks, MJPEG collector, SMB mounts.
   */
  lemma RunStartOrder(s: Settings, o: RunOracle)
    ensures StartsOrdered(Run(s, o))
    ensures forall i, j ::
      (0 <= i < |Run(s, o)| && 0 <= j < |Run(s, o)| && Run(s, o)[i].MakeDirs? && Run(s, o)[j] == UpdateMounts) ==> i < j
    ensures forall i, j ::
      (0 <= i < |Run(s, o)| && 0 <= j < |Run(s, o)| && Run(s, o)[i] == UpdateMounts && Run(s, o)[j] == StartSubsystem(Motion)) ==> i < j
  {
    RunSetupOrdered(s, o);
    SetupOrderedSteps(Run(s, o));
  }
}
